=== FILE: README.md ===
# Concrete-class index generation, modelled in Dafny

Two Maven plugins build an index of the concrete subclasses of a base type
from compiled classes:

- `CodegenConcreteClassPlugin` writes a `.properties` file with one line per
  requested base type: `dotted.Base=dotted.Impl1,dotted.Impl2`.
- `CodegenNanoSvcList` writes the dotted names of one service type's
  implementations, joined by newlines.

Both follow the same pipeline. First, every class file is reduced to a small
header: the access flags and the superclass name. The parser reads the start
of the class file as laid out in chapter 4 of the Java Virtual Machine
Specification (section 4.1 for the layout, section 4.4 for the
constant-pool tags, section 4.4.5 for the two-slot long/double entries).
Second, the headers are stored under their internal names. The module's own
classes use `put` and the jars' classes use `putIfAbsent`. Third, every
concrete class's superclass chain is walked with a memo cache and a hop
bound of 256 links. Finally, the text is written only when it differs from
the existing file.

The concrete-class plugin can also merge a precomputed index shipped inside
a jar. It skips scanning that jar's classes when the index covers every
requested base.

The project has one module per concern:

- `ClassHeader`: the header parser, over byte sequences.
- `ClassFileImage` and `ClassFileFacts`: an encoder for well-formed
  class-file prefixes, and the proof that the parser reads them back.
- `ClassNames`: `toDotted`, `toInternal`, `formatKey` and
  `parseBaseClasses`.
- `Text`: splitting, joining and trimming.
- `SortedSet`: a `TreeSet<String>` as a strictly sorted sequence.
- `Precomputed`: `readAllPropertiesFromJar` over already-parsed properties.
- `Resolver`: `isSubclassOfBase` and `markVisited`, both copies.
- `HeaderStore`: the store-population rules.
- `Output`: both file formats and the write-only-if-changed decision.
- `ConcreteClassPlugin`: the `execute` of `CodegenConcreteClassPlugin`.
- `NanoSvcList`: the `execute` of `CodegenNanoSvcList`.

Modelling choices:

- The file system is a `Project`: a flag for the classes directory, the own
  class files, the artifacts in order (each with its entries and an
  optional parsed index), and the existing output text as an `Option`.
- The header parser is a function parameter of the store builders and of
  both plugins' `Execute` methods. The plugins pass `ClassHeader.Read`,
  and no contract depends on which parser is given.
- `HashMap` and `HashSet` iteration order is unspecified. The model
  chooses nondeterministically (`:|`), so every proved property holds for
  every order.
- "Descends from the base" is defined independently of the walk. A class
  descends when it is concrete and its superclass chain reaches the base
  through concrete classes other than `java/lang/Object`, with no bound on
  the number of links. The walk is proved sound against that definition.
  It is proved exact whenever every descendant reaches the base within
  the 256-link bound (`Shallow`).

## Model

| member | source | states |
|---|---|---|
| ClassHeader.FlagsAreBits | src/main/java/io/github/absketches/plugin/concreteclazz/ClassHeader.java:11-20 | `isInterface` holds exactly when bit 0x0200 of the flags is set, and `isAbstract` exactly when bit 0x0400 is set |
| ClassHeader.IsConcrete | src/main/java/io/github/absketches/plugin/concreteclazz/ClassFileUtils.java:31-33 | a header is concrete exactly when neither the interface bit 0x0200 nor the abstract bit 0x0400 is set |
| ClassHeader.ReadU2 | src/main/java/io/github/absketches/plugin/concreteclazz/ClassHeader.java:29-32 | a u2 is read big-endian from two bytes; fewer than two remaining bytes is a truncation error |
| ClassHeader.EntryBody | src/main/java/io/github/absketches/plugin/concreteclazz/ClassHeader.java:38-57 | a tag outside the known set is an unknown-tag error; a recognised entry advances the pool index by one or two and never moves the cursor backwards or past the end; every failure is an I/O error |
| ClassHeader.ReadEntry | src/main/java/io/github/absketches/plugin/concreteclazz/ClassHeader.java:37-57 | an entry consumes at least its tag byte; an unknown tag at the cursor is reported as that tag |
| ClassHeader.ReadPool | src/main/java/io/github/absketches/plugin/concreteclazz/ClassHeader.java:36-58 | once the index reaches the pool count the loop reads nothing more; every failure inside the loop is an I/O error, and an unknown-tag error names a tag outside the known set |
| ClassHeader.EntryWidth | src/main/java/io/github/absketches/plugin/concreteclazz/ClassHeader.java:40-55 | every non-Utf8 tag consumes exactly its fixed width and fails exactly when the bytes run out; only tags 5 and 6 take two slots; only tag 7 records its name index, and nothing else changes the pool |
| ClassHeader.Utf8Width | src/main/java/io/github/absketches/plugin/concreteclazz/ClassHeader.java:39 | a Utf8 entry consumes its 2-byte length plus that many bytes and records them at its slot; it fails exactly when the bytes run out |
| ClassHeader.ReadPoolOutcome | src/main/java/io/github/absketches/plugin/concreteclazz/ClassHeader.java:36-58 | the pool loop ends with the cursor inside the input, or with a truncation or unknown-tag error |
| ClassHeader.ReadPoolUnknownTag | src/main/java/io/github/absketches/plugin/concreteclazz/ClassHeader.java:56 | an unknown tag where an entry is due aborts the pool loop with that tag |
| ClassHeader.PoolKeys | src/main/java/io/github/absketches/plugin/concreteclazz/ClassHeader.java:34-58 | the loop keeps the Utf8 entries recorded before the current slot, and records only slots between the current slot and the pool count |
| ClassHeader.ResolveSuper | src/main/java/io/github/absketches/plugin/concreteclazz/ClassHeader.java:64-71 | super index 0 gives no superclass; an index at or past the pool count is an out-of-range error; a Class slot never filled, or one with name index 0, gives no superclass; a name index at or past the pool count is an out-of-range error naming that index; otherwise the name is the Utf8 text at the class entry's name index, or none when that slot holds no text |
| ClassHeader.Read | src/main/java/io/github/absketches/plugin/concreteclazz/ClassHeader.java:22-72 | fewer than 4 bytes is truncation; a wrong magic number is an error and never a header; success needs the magic and at least 16 bytes; an unknown-tag error names a tag outside the known set |
| ClassFileImage.ReadOneConstant | src/main/java/io/github/absketches/plugin/concreteclazz/ClassHeader.java:37-57 | an encoded constant of any kind is read back with exactly its encoded width and slot count, recording Utf8 and Class entries only |
| ClassFileImage.ReadEncodedPool | src/main/java/io/github/absketches/plugin/concreteclazz/ClassHeader.java:36-58 | an encoded pool of valid constants, long/double entries included, is read back to the pool that loading the constants gives, ending right after the pool |
| ClassFileImage.LoadAgrees | src/main/java/io/github/absketches/plugin/concreteclazz/ClassHeader.java:39-45 | after loading, a slot holds Utf8 text exactly when the constant occupying it is Utf8, and a class index exactly when it is a Class entry; the second slot of a long/double holds neither |
| ClassFileImage.ResolveLoaded | src/main/java/io/github/absketches/plugin/concreteclazz/ClassHeader.java:60-71 | resolving the super index over the loaded pool agrees with the header read off the constants directly |
| ClassFileImage.ReadEncoded | src/main/java/io/github/absketches/plugin/concreteclazz/ClassHeader.java:22-72 | any well-formed class-file prefix, whatever follows it, parses to the header given by its flags and its super entry; `this_class` has no influence |
| ClassFileFacts.ReadsSuperName | src/main/java/io/github/absketches/plugin/concreteclazz/ClassHeader.java:22-72 | a minimal class file built from given flags and superclass name parses back to exactly those flags and that name |
| ClassFileFacts.UnknownFirstTag | src/main/java/io/github/absketches/plugin/concreteclazz/ClassHeader.java:26-58 | a class file whose first pool entry carries an unknown tag is rejected with that tag |
| ClassNames.ToDotted | src/main/java/io/github/absketches/plugin/concreteclazz/ClassFileUtils.java:23-25 | the result has no '/' and differs from the input only where the input has '/' |
| ClassNames.ToInternal | src/main/java/io/github/absketches/plugin/concreteclazz/ClassFileUtils.java:27-29 | the result has no '.' and differs from the input only where the input has '.' |
| ClassNames.ToDottedRoundTrip | src/main/java/io/github/absketches/plugin/concreteclazz/ClassFileUtils.java:23-29 | `toInternal(toDotted(s)) == s` for every `s` without '.' |
| ClassNames.ToInternalRoundTrip | src/main/java/io/github/absketches/plugin/concreteclazz/ClassFileUtils.java:23-29 | `toDotted(toInternal(s)) == s` for every `s` without '/' |
| ClassNames.FormatKey | src/main/java/io/github/absketches/plugin/concreteclazz/ClassFileUtils.java:36-38 | the key is always six characters shorter than the path, and a path ending in `.class` is the key followed by `.class` |
| ClassNames.FormatKeyOfClassFile | src/main/java/io/github/absketches/plugin/concreteclazz/ClassFileUtils.java:36-38 | `formatKey(n + ".class") == n` |
| ClassNames.ParseBaseClasses | src/main/java/io/github/absketches/plugin/concreteclazz/ClassFileUtils.java:41-49 | an absent or blank option gives no bases; every base is non-empty, trimmed, and free of ',' and '.' |
| ClassNames.ParseJoinedBaseClasses | src/main/java/io/github/absketches/plugin/concreteclazz/ClassFileUtils.java:41-49 | parsing comma-joined trimmed dotted names gives exactly their internal forms, in input order |
| ClassNames.ParseJoinedPieces | src/main/java/io/github/absketches/plugin/concreteclazz/ClassFileUtils.java:41-49 | any comma-free pieces joined by commas, padded or empty ones included, parse to every piece trimmed, the empty ones dropped, the rest in internal form and in order; a blank option gives none |
| Precomputed.TokensOfJoined | src/main/java/io/github/absketches/plugin/concreteclazz/ClassFileUtils.java:66-72 | comma-joined names that are already stripped and non-empty split back into exactly those names, in internal form and in order |
| Precomputed.Absorb | src/main/java/io/github/absketches/plugin/concreteclazz/ClassFileUtils.java:64-73 | an index key whose base is not allowed changes nothing; an allowed base gets a set even with no tokens, and only its set grows, by exactly the tokens |
| Precomputed.ReadAllProperties | src/main/java/io/github/absketches/plugin/concreteclazz/ClassFileUtils.java:53-78 | full coverage is reported exactly when every allowed base is a key after '.' becomes '/'; exactly the matched bases gain a set; bases that are not allowed are untouched; nothing is removed; each set is its old contents plus the tokens of every key naming it |
| Precomputed.ReadOrderIrrelevant | src/main/java/io/github/absketches/plugin/concreteclazz/ClassFileUtils.java:62-76 | the coverage flag and the merged index do not depend on the order the keys are visited in |
| Resolver.MarkVisited | src/main/java/io/github/absketches/plugin/concreteclazz/ClassFileUtils.java:127-129 | every visited name gets a verdict. With `putIfAbsent` the cached verdicts are kept; with `put` (the nano copy) the visited ones are replaced. New names get the given verdict |
| Resolver.MarkPoliciesAgree | src/main/java/org/nanonative/plugin/nanosvc/CodegenNanoSvcList.java:211-214 | when no visited name is cached yet, `put` and `putIfAbsent` mark identically, so the two copies of the walk agree |
| Resolver.Climb | src/main/java/io/github/absketches/plugin/concreteclazz/ClassFileUtils.java:94-124 | the loop's visited names are the class followed by exactly the ancestors `Walk` lists, none of them cached; with sound `true`s cached, `true` means every visited name descends from the base; with exact verdicts cached and chains within the hop bound, the verdict is each visited name's real one |
| Resolver.IsSubclassOfBase | src/main/java/io/github/absketches/plugin/concreteclazz/ClassFileUtils.java:81-129 | a cached verdict is returned unchanged; an absent, interface or abstract start class is false and cached false; the cache only grows and keeps its entries; the verdict is cached for the start class and every newly cached name; for an uncached concrete start class, the names newly cached are exactly the class and the ancestors its walk visited (`Walk`, the chain up to the first name that stops it or the hop bound); `true` means a real chain to the base; with exact cache entries and chains within the hop bound, the verdict is exactly "descends" |
| Resolver.CycleIsFalse | src/main/java/io/github/absketches/plugin/concreteclazz/ClassFileUtils.java:98-124 | two classes that extend each other never descend from any other base |
| HeaderStore.ScanDirectory | src/main/java/io/github/absketches/plugin/concreteclazz/CodegenConcreteClassPlugin.java:108-121 | scanning the own classes succeeds exactly when every class file parses; a failure is some class file's parse error |
| HeaderStore.ScanDirectoryKeys | src/main/java/io/github/absketches/plugin/concreteclazz/CodegenConcreteClassPlugin.java:108-121 | the store gains exactly the keys of the class files |
| HeaderStore.ScanDirectoryLastWins | src/main/java/io/github/absketches/plugin/concreteclazz/CodegenConcreteClassPlugin.java:117 | with `put`, a key holds the header of its last class file |
| HeaderStore.ScanDirectoryKeeps | src/main/java/io/github/absketches/plugin/concreteclazz/CodegenConcreteClassPlugin.java:117 | a stored key that no class file names keeps its header |
| HeaderStore.ScanJar | src/main/java/io/github/absketches/plugin/concreteclazz/CodegenConcreteClassPlugin.java:154-166 | no stored header is replaced; the scan stops with an error exactly when some class entry fails to parse, and the error is that entry's |
| HeaderStore.ScanJarStopsAtFirstFailure | src/main/java/io/github/absketches/plugin/concreteclazz/CodegenConcreteClassPlugin.java:154-166 | the scan stops at the first class entry that fails to parse, with that entry's error; the headers of the entries before it stay stored and no later entry is stored |
| HeaderStore.ScanJarKeys | src/main/java/io/github/absketches/plugin/concreteclazz/CodegenConcreteClassPlugin.java:154-166 | a jar adds only its class keys, and all of them when every entry parses |
| HeaderStore.ScanJarFirstWins | src/main/java/io/github/absketches/plugin/concreteclazz/CodegenConcreteClassPlugin.java:163 | with `putIfAbsent`, a key not stored before holds the header of its first entry in the jar |
| Output.PutRow | src/main/java/io/github/absketches/plugin/concreteclazz/CodegenConcreteClassPlugin.java:184 | `LinkedHashMap.put`: a new base is appended at the end, an existing base keeps its place, and other rows are untouched |
| Output.PutRowLookup | src/main/java/io/github/absketches/plugin/concreteclazz/CodegenConcreteClassPlugin.java:184 | after the put, the base maps to the new implementations |
| Output.PutRowLookupOther | src/main/java/io/github/absketches/plugin/concreteclazz/CodegenConcreteClassPlugin.java:184 | every other base maps to what it mapped to before |
| Output.PropertiesLines | src/main/java/io/github/absketches/plugin/concreteclazz/CodegenConcreteClassPlugin.java:195-205 | the properties text splits at its newlines into one line per row, in row order, followed by the empty rest after the last newline |
| Output.PropertiesContent | src/main/java/io/github/absketches/plugin/concreteclazz/CodegenConcreteClassPlugin.java:195-205 | no rows give the empty text; otherwise the text starts with the first row's line and ends in a newline |
| Output.IndexLineReadsBack | src/main/java/io/github/absketches/plugin/concreteclazz/CodegenConcreteClassPlugin.java:196-203 | a line is the dotted base, '=' and the comma-joined dotted implementations; the index reader recovers the base and the implementations from it |
| Output.ServiceListContent | src/main/java/org/nanonative/plugin/nanosvc/CodegenNanoSvcList.java:193 | no services give the empty text; services without newlines are joined with no trailing newline, so the text splits back into exactly those services, in order |
| Output.ShouldWrite | src/main/java/io/github/absketches/plugin/concreteclazz/CodegenConcreteClassPlugin.java:207-211 | the file is written when it does not exist or its text differs from the new content, and left alone exactly when its text equals it |
| SortedSet.Insert | src/main/java/io/github/absketches/plugin/concreteclazz/CodegenConcreteClassPlugin.java:179 | `TreeSet.add` keeps the names sorted and distinct, and adds exactly the new name |
| SortedSet.SortedUnique | src/main/java/io/github/absketches/plugin/concreteclazz/CodegenConcreteClassPlugin.java:170 | two sorted sequences with the same members are equal, so a `TreeSet` has one iteration order |
| ConcreteClassPlugin.PrepareToScanJar | src/main/java/io/github/absketches/plugin/concreteclazz/CodegenConcreteClassPlugin.java:134-152 | the class scan is skipped exactly when precomputed use is on, the jar has an index, the base list is non-empty and the index covers every base; a consulted index is merged with `readAllPropertiesFromJar` whether or not it covers them, and one not consulted changes nothing precomputed; when not skipped, every class entry is scanned with `putIfAbsent`; stored headers are never replaced |
| ConcreteClassPlugin.ProcessArtifact | src/main/java/io/github/absketches/plugin/concreteclazz/CodegenConcreteClassPlugin.java:123-132 | only a present file whose type equals "jar" ignoring case is read; an I/O error in a jar is swallowed and the headers read before it are kept; only an out-of-range pool index escapes, so a jar whose class entries fail only with I/O errors never stops the build |
| ConcreteClassPlugin.ProcessArtifacts | src/main/java/io/github/absketches/plugin/concreteclazz/CodegenConcreteClassPlugin.java:89-91 | processing the artifacts in order never replaces a stored header; a failure can only be an out-of-range pool index, and the loop succeeds whenever no jar has a class entry failing with anything else |
| ConcreteClassPlugin.GatherConcreteClasses | src/main/java/io/github/absketches/plugin/concreteclazz/CodegenConcreteClassPlugin.java:168-185 | the result is sorted and holds the base's precomputed names; every other name is a concrete real descendant; with chains within the hop bound, every descendant is included |
| ConcreteClassPlugin.GatheredUnique | src/main/java/io/github/absketches/plugin/concreteclazz/CodegenConcreteClassPlugin.java:168-185 | within the hop bound, the base's implementation list is fully determined: its precomputed names and its descendants, in `TreeSet` order |
| ConcreteClassPlugin.GatherAll | src/main/java/io/github/absketches/plugin/concreteclazz/CodegenConcreteClassPlugin.java:96-99 | one row per requested base, in first-request order, each gathered with a fresh cache |
| ConcreteClassPlugin.RowsUnique | src/main/java/io/github/absketches/plugin/concreteclazz/CodegenConcreteClassPlugin.java:96-99 | within the hop bound, two row lists for the same bases, each row gathered, are equal, so the rows do not depend on the store's iteration order |
| ConcreteClassPlugin.Execute | src/main/java/io/github/absketches/plugin/concreteclazz/CodegenConcreteClassPlugin.java:70-106 | no classes directory means nothing is scanned or written; an own class that fails to parse aborts with its error; once the own classes parse, the build fails exactly when the artifact loop fails, with its error, and is generated whenever no jar has a class entry failing with anything but an I/O error; the store and precomputed index are exactly what the artifact loop gathers on top of the own classes, and own headers are never replaced; one row per distinct requested base, each gathered from that store and index; the content is the properties text; the file is written exactly when its text changes |
| NanoSvcList.ScanJars | src/main/java/org/nanonative/plugin/nanosvc/CodegenNanoSvcList.java:73-77 | only present files of type exactly "jar" are scanned; the loop succeeds exactly when every class entry of those jars parses; on success the jars add exactly their class keys and replace nothing |
| NanoSvcList.ScanJarsFailure | src/main/java/org/nanonative/plugin/nanosvc/CodegenNanoSvcList.java:73-77 | the error that aborts the loop is the parse error of some class entry of a scanned jar |
| NanoSvcList.MatchServices | src/main/java/org/nanonative/plugin/nanosvc/CodegenNanoSvcList.java:89-98 | every listed name is the dotted name of a real descendant; with chains within the hop bound, all of them are listed |
| NanoSvcList.Enumerate | src/main/java/org/nanonative/plugin/nanosvc/CodegenNanoSvcList.java:193 | the `HashSet` is listed with each member exactly once |
| NanoSvcList.Execute | src/main/java/org/nanonative/plugin/nanosvc/CodegenNanoSvcList.java:59-105 | no classes directory means nothing is written; any parse failure aborts, with the own class file's error or else the error the jar loop stops on; the store is exactly what the jar loop builds on the own classes, holding the own and the jar class keys; a base missing from the store gives an empty list; otherwise the listed names are real descendants (all of them within the hop bound), each listed once and joined by newlines; the file is written exactly when its text changes |
| NanoSvcList.MissingBaseStillDescends | src/main/java/org/nanonative/plugin/nanosvc/CodegenNanoSvcList.java:83-87 | the early exit is not implied by the walk: with the base's own class file absent, a class extending the base still descends from it, yet nothing is listed |

## Left out

- File-system and jar I/O: walking directories, opening jars, reading
  streams, creating directories, temporary files and the atomic move. The
  file system is the `Project` value, and the write is the single
  write-or-not decision.
- Logging and the Maven plugin plumbing: parameters, artifact resolution
  and the wrapping of exceptions into a build failure. A failure is the
  `Failed` outcome.
- The `java.util.Properties` text syntax. A jar's index arrives already
  parsed, as keys in an iteration order plus their values.
- Modified UTF-8 decoding of Utf8 constants. Each byte becomes one
  character, which is exact for ASCII names.
- The `'\\'` to `'/'` replacement of Windows paths in `scanDirectory`.
  Class-file paths are taken with '/' already.
- `writeProperties` and `writeServiceList` return early when the output
  path has no parent. The configured output paths always have one, so this
  branch is not modelled.
- `equalsIgnoreCase` is modelled for the letters of "jar" only, without
  other Unicode case mappings.
- `TreeSet` orders by `String.compareTo`, on UTF-16 code units. `Less`
  compares characters, which agrees for names in the Basic Multilingual
  Plane.
- Errors are not separated by cause. Opening a jar, a short read and a bad
  magic number are all one kind of I/O failure (`IsIOException`). An
  out-of-range pool index is the one runtime exception, and it is fatal.
- The nano plugin's own copy of the class-header parser is not part of
  this model. Both plugins use `ClassHeader.Read`.
- Resolver.IsSubclassOfBase: exactness holds only when every descendant
  reaches the base within 256 links (`Shallow`). Beyond the bound, a walk
  that runs out of hops caches `false` for names that do descend. Later
  verdicts then depend on the visiting order, so only soundness is stated
  in that case.
- ConcreteClassPlugin.GatherConcreteClasses: completeness is stated under
  `Shallow` only, for the reason given for IsSubclassOfBase.
- NanoSvcList.MatchServices: completeness is stated under `Shallow` only,
  for the same reason.
- NanoSvcList.Enumerate: the order of the service list is left
  unspecified, as `HashSet` iteration order is.

## Where the code and its description differ

- With an empty base list, the concrete-class plugin still writes the
  file, with empty content. It is not a no-op.
- In the concrete-class plugin, a class in a jar that fails to parse
  (truncated, bad magic, unknown tag) raises an `IOException`. That
  exception is caught per jar: the jar's headers read before it stay in
  the store, and later artifacts are still processed. An out-of-range super
  index raises `ArrayIndexOutOfBoundsException` instead. It is not caught
  and fails the build. In the nano plugin every failure fails the build.

=== FILE: class_file_image.dfy ===
/** The partner of the header reader: an abstract class-file prefix (version,
    constant pool, flags, `this_class`, `super_class`), its byte encoding
    following section 4.1 and section 4.4 of the Java Virtual Machine
    Specification, and the proof that reading the encoding gives back the
    flags and the superclass name the abstract prefix names. */
module ClassFileImage {
  import opened Wrappers
  import opened ClassHeader

  /** A big-endian `u2` as its two bytes. */
  datatype U2 = U2(hi: u8, lo: u8)

  function Value(w: U2): (n: nat)
    ensures n < 0x1_0000
  {
    w.hi as nat * 0x100 + w.lo as nat
  }

  /** The two bytes of `n`. */
  function ToU2(n: nat): (w: U2)
    requires n < 0x1_0000
    ensures Value(w) == n
  {
    U2((n / 0x100) as u8, (n % 0x100) as u8)
  }

  /** The skipped one-index tags: Integer, Float, String, Fieldref, Methodref,
      InterfaceMethodref, NameAndType, MethodHandle, MethodType,
      InvokeDynamic, Module and Package. */
  const NarrowTags: set<u8> := {3, 4, 8, 9, 10, 11, 12, 15, 16, 18, 19, 20}

  /** Payload size of a skipped one-index entry, from the `CONSTANT_*_info`
      structures of section 4.4. */
  function NarrowWidth(tag: u8): nat
  {
    if tag == 3 || tag == 4 then 4
    else if tag == 15 then 3
    else if tag == 8 || tag == 16 || tag == 19 || tag == 20 then 2
    else 4
  }

  /** One constant-pool entry. A Utf8 entry holds its length field and its
      bytes; `Wide` is a Long or Double (tags 5 and 6, two pool indices);
      `Narrow` is any other entry the reader skips. */
  datatype Constant =
    | Utf8(length: U2, text: seq<u8>)
    | ClassRef(nameIndex: U2)
    | Wide(tag: u8, payload: seq<u8>)
    | Narrow(tag: u8, payload: seq<u8>)

  /** The length field counts the text's bytes; a skipped entry's payload
      has the width its tag calls for. */
  predicate ValidConstant(c: Constant)
  {
    match c
    case Utf8(n, t) => Value(n) == |t|
    case ClassRef(_) => true
    case Wide(tag, p) => (tag == 5 || tag == 6) && |p| == 8
    case Narrow(tag, p) => tag in NarrowTags && |p| == NarrowWidth(tag)
  }

  predicate ValidConstants(cs: seq<Constant>)
  {
    |cs| == 0 || (ValidConstant(cs[0]) && ValidConstants(cs[1..]))
  }

  /** Pool indices a constant occupies (section 4.4.5). */
  function Slots(c: Constant): nat
  {
    if c.Wide? then 2 else 1
  }

  function PoolSlots(cs: seq<Constant>): nat
  {
    if |cs| == 0 then 0 else Slots(cs[0]) + PoolSlots(cs[1..])
  }

  /** The constant whose first index is `slot`, when the constants `cs` start
      at index `first`. The second index of a Long or Double holds none. */
  function ConstantAt(cs: seq<Constant>, first: nat, slot: nat): Option<Constant>
    decreases |cs|
  {
    if |cs| == 0 then None
    else if slot == first then Some(cs[0])
    else ConstantAt(cs[1..], first + Slots(cs[0]), slot)
  }

  function U2Bytes(w: U2): seq<u8>
  {
    [w.hi, w.lo]
  }

  function EncodeConstant(c: Constant): (bs: seq<u8>)
    ensures |bs| >= 1
  {
    match c
    case Utf8(n, t) => [1 as u8] + U2Bytes(n) + t
    case ClassRef(n) => [7 as u8] + U2Bytes(n)
    case Wide(tag, p) => [tag] + p
    case Narrow(tag, p) => [tag] + p
  }

  function EncodePool(cs: seq<Constant>): seq<u8>
  {
    if |cs| == 0 then [] else EncodeConstant(cs[0]) + EncodePool(cs[1..])
  }

  /** The fields of a ClassFile up to `super_class`. */
  datatype Image = Image(
    minor: U2,
    major: U2,
    count: U2,
    pool: seq<Constant>,
    accessFlags: U2,
    thisClass: U2,
    superClass: U2)

  /** `constant_pool_count` is the pool's index count plus one and is a u2. */
  predicate ValidImage(img: Image)
  {
    ValidConstants(img.pool) && Value(img.count) == 1 + PoolSlots(img.pool)
  }

  function Encode(img: Image): seq<u8>
    requires ValidImage(img)
  {
    Magic + U2Bytes(img.minor) + U2Bytes(img.major) + U2Bytes(img.count)
    + EncodePool(img.pool)
    + U2Bytes(img.accessFlags) + U2Bytes(img.thisClass) + U2Bytes(img.superClass)
  }

  /** The `name_index` of the Class entry at `slot`, 0 when there is none. */
  function ClassNameAt(cs: seq<Constant>, slot: nat): nat
  {
    var c := ConstantAt(cs, 1, slot);
    if c.Some? && c.value.ClassRef? then Value(c.value.nameIndex) else 0
  }

  /** The text of the Utf8 entry at `slot`, if there is one. */
  function TextAt(cs: seq<Constant>, slot: nat): Option<string>
  {
    var c := ConstantAt(cs, 1, slot);
    if c.Some? && c.value.Utf8? then Some(Latin1(c.value.text)) else None
  }

  /** What the prefix says about the class: its flags, and the text of the
      Utf8 entry named by the Class entry `super_class` designates; no
      superclass for index 0, for an index not designating a Class entry, for
      a Class entry naming index 0 and for a name index not designating a
      Utf8 entry; an index beyond the pool is an error. */
  function ExpectedHeader(img: Image): Result<Header, Error>
  {
    var count := 1 + PoolSlots(img.pool);
    var superIdx := Value(img.superClass);
    var nameIdx := ClassNameAt(img.pool, superIdx);
    var flags := Value(img.accessFlags) as u16;
    if superIdx == 0 then Success(Header(flags, None))
    else if superIdx >= count then Failure(IndexOutOfRange(superIdx))
    else if nameIdx == 0 then Success(Header(flags, None))
    else if nameIdx >= count then Failure(IndexOutOfRange(nameIdx))
    else Success(Header(flags, TextAt(img.pool, nameIdx)))
  }

  /** The pool the reader holds after the constants `cs`, starting at index
      `i`. */
  function Load(cs: seq<Constant>, i: nat, pool: Pool): Pool
    decreases |cs|
  {
    if |cs| == 0 then pool
    else Load(cs[1..], i + Slots(cs[0]), Record(pool, i, cs[0]))
  }

  /** The bytes at `pos` are exactly `e`. */
  predicate Window(bytes: seq<u8>, pos: nat, e: seq<u8>)
  {
    pos + |e| <= |bytes| && bytes[pos..pos + |e|] == e
  }

  lemma WindowAt(bytes: seq<u8>, pos: nat, e: seq<u8>, k: nat)
    requires Window(bytes, pos, e) && k < |e|
    ensures bytes[pos + k] == e[k]
  {
    assert bytes[pos..pos + |e|][k] == bytes[pos + k];
  }

  lemma WindowSplit(bytes: seq<u8>, pos: nat, a: seq<u8>, b: seq<u8>)
    requires Window(bytes, pos, a + b)
    ensures Window(bytes, pos, a) && Window(bytes, pos + |a|, b)
  {
    var w := bytes[pos..pos + |a| + |b|];
    assert w == a + b;
    assert bytes[pos..pos + |a|] == w[..|a|];
    assert bytes[pos + |a|..pos + |a| + |b|] == w[|a|..];
    assert w[..|a|] == a && w[|a|..] == b;
  }

  lemma ReadU2Encoded(bytes: seq<u8>, pos: nat, w: U2)
    requires Window(bytes, pos, U2Bytes(w))
    ensures ReadU2(bytes, pos) == Success(Cursor(Value(w) as u16, pos + 2))
  {
    WindowAt(bytes, pos, U2Bytes(w), 0);
    WindowAt(bytes, pos, U2Bytes(w), 1);
  }

  lemma ReadUtf8Constant(bytes: seq<u8>, pos: nat, i: nat, pool: Pool, n: U2, t: seq<u8>)
    requires Value(n) == |t|
    requires Window(bytes, pos, EncodeConstant(Utf8(n, t)))
    ensures ReadEntry(bytes, pos, i, pool)
            == Success(Step(pos + 3 + |t|, i + 1, pool.(utf8 := pool.utf8[i := Latin1(t)])))
  {
    var len := U2Bytes(n);
    assert EncodeConstant(Utf8(n, t)) == [1 as u8] + len + t;
    WindowSplit(bytes, pos, [1 as u8] + len, t);
    WindowSplit(bytes, pos, [1 as u8], len);
    WindowAt(bytes, pos, [1 as u8], 0);
    ReadU2Encoded(bytes, pos + 1, n);
  }

  lemma ReadClassConstant(bytes: seq<u8>, pos: nat, i: nat, pool: Pool, n: U2)
    requires Window(bytes, pos, EncodeConstant(ClassRef(n)))
    ensures ReadEntry(bytes, pos, i, pool)
            == Success(Step(pos + 3, i + 1, pool.(classNameIndex := pool.classNameIndex[i := Value(n)])))
  {
    WindowSplit(bytes, pos, [7 as u8], U2Bytes(n));
    WindowAt(bytes, pos, [7 as u8], 0);
    ReadU2Encoded(bytes, pos + 1, n);
  }

  lemma ReadSkippedConstant(bytes: seq<u8>, pos: nat, i: nat, pool: Pool, c: Constant)
    requires ValidConstant(c) && (c.Wide? || c.Narrow?)
    requires Window(bytes, pos, EncodeConstant(c))
    ensures ReadEntry(bytes, pos, i, pool) == Success(Step(pos + 1 + |c.payload|, i + Slots(c), pool))
  {
    WindowAt(bytes, pos, EncodeConstant(c), 0);
  }

  /** Reading one encoded constant consumes exactly its bytes and its pool
      indices and records what the constant is. */
  lemma ReadOneConstant(bytes: seq<u8>, pos: nat, i: nat, pool: Pool, c: Constant)
    requires ValidConstant(c)
    requires Window(bytes, pos, EncodeConstant(c))
    ensures ReadEntry(bytes, pos, i, pool)
            == Success(Step(pos + |EncodeConstant(c)|, i + Slots(c), Record(pool, i, c)))
  {
    match c
    case Utf8(n, t) => ReadUtf8Constant(bytes, pos, i, pool, n, t);
    case ClassRef(n) => ReadClassConstant(bytes, pos, i, pool, n);
    case Wide(_, _) => ReadSkippedConstant(bytes, pos, i, pool, c);
    case Narrow(_, _) => ReadSkippedConstant(bytes, pos, i, pool, c);
  }

  /** Below the count, the pool loop reads one encoded constant and carries
      on after it. */
  lemma PoolStepEncoded(bytes: seq<u8>, pos: nat, i: nat, count: nat, pool: Pool, c: Constant)
    requires ValidConstant(c) && i < count
    requires Window(bytes, pos, EncodeConstant(c))
    ensures pos + |EncodeConstant(c)| <= |bytes|
    ensures ReadPool(bytes, pos, i, count, pool)
            == ReadPool(bytes, pos + |EncodeConstant(c)|, i + Slots(c), count, Record(pool, i, c))
  {
    ReadOneConstant(bytes, pos, i, pool, c);
    ReadPoolStep(bytes, pos, i, count, pool);
  }

  /** Reading the encoded constants `cs` from index `i` up to the pool
      count consumes exactly their bytes and yields the pool `Load`
      describes. */
  lemma {:induction false} ReadEncodedPool(bytes: seq<u8>, pos: nat, i: nat, count: nat, pool: Pool, cs: seq<Constant>)
    requires ValidConstants(cs)
    requires i + PoolSlots(cs) == count
    requires Window(bytes, pos, EncodePool(cs))
    ensures ReadPool(bytes, pos, i, count, pool) == Success(Cursor(Load(cs, i, pool), pos + |EncodePool(cs)|))
    decreases |cs|, 1
  {
    if |cs| > 0 {
      ReadEncodedPoolCons(bytes, pos, i, count, pool, cs);
    }
  }

  lemma {:induction false} ReadEncodedPoolCons(bytes: seq<u8>, pos: nat, i: nat, count: nat, pool: Pool, cs: seq<Constant>)
    requires ValidConstants(cs) && |cs| > 0
    requires i + PoolSlots(cs) == count
    requires Window(bytes, pos, EncodePool(cs))
    ensures ReadPool(bytes, pos, i, count, pool) == Success(Cursor(Load(cs, i, pool), pos + |EncodePool(cs)|))
    decreases |cs|, 0
  {
    var next, j, loaded := PoolStep(bytes, pos, i, count, pool, cs);
    ReadEncodedPool(bytes, next, j, count, loaded, cs[1..]);
  }

  lemma PoolStep(bytes: seq<u8>, pos: nat, i: nat, count: nat, pool: Pool, cs: seq<Constant>)
    returns (next: nat, j: nat, loaded: Pool)
    requires ValidConstants(cs) && |cs| > 0
    requires i + PoolSlots(cs) == count
    requires Window(bytes, pos, EncodePool(cs))
    ensures ValidConstants(cs[1..]) && j + PoolSlots(cs[1..]) == count
    ensures Window(bytes, next, EncodePool(cs[1..]))
    ensures pos <= |bytes| && ReadPool(bytes, pos, i, count, pool) == ReadPool(bytes, next, j, count, loaded)
    ensures Load(cs, i, pool) == Load(cs[1..], j, loaded)
    ensures pos + |EncodePool(cs)| == next + |EncodePool(cs[1..])|
  {
    var c := cs[0];
    next, j, loaded := pos + |EncodeConstant(c)|, i + Slots(c), Record(pool, i, c);
    PoolCons(cs);
    PoolWindowRest(bytes, pos, cs);
    PoolReadFirst(bytes, pos, i, count, pool, cs);
    LoadStep(cs, i, pool);
  }

  /** After the first encoded constant come the others. */
  lemma PoolWindowRest(bytes: seq<u8>, pos: nat, cs: seq<Constant>)
    requires ValidConstants(cs) && |cs| > 0
    requires Window(bytes, pos, EncodePool(cs))
    ensures ValidConstant(cs[0]) && ValidConstants(cs[1..])
    ensures Window(bytes, pos + |EncodeConstant(cs[0])|, EncodePool(cs[1..]))
  {
    PoolCons(cs);
    WindowSplit(bytes, pos, EncodeConstant(cs[0]), EncodePool(cs[1..]));
  }

  /** Below the count, the loop reads the first encoded constant and
      carries on after it. */
  lemma PoolReadFirst(bytes: seq<u8>, pos: nat, i: nat, count: nat, pool: Pool, cs: seq<Constant>)
    requires ValidConstants(cs) && |cs| > 0 && i < count
    requires Window(bytes, pos, EncodePool(cs))
    ensures pos + |EncodeConstant(cs[0])| <= |bytes|
    ensures ReadPool(bytes, pos, i, count, pool)
            == ReadPool(bytes, pos + |EncodeConstant(cs[0])|, i + Slots(cs[0]), count, Record(pool, i, cs[0]))
  {
    PoolCons(cs);
    WindowSplit(bytes, pos, EncodeConstant(cs[0]), EncodePool(cs[1..]));
    PoolStepEncoded(bytes, pos, i, count, pool, cs[0]);
  }

  /** A non-empty pool is its first constant followed by the rest. */
  lemma PoolCons(cs: seq<Constant>)
    requires ValidConstants(cs) && |cs| > 0
    ensures ValidConstant(cs[0]) && ValidConstants(cs[1..])
    ensures EncodePool(cs) == EncodeConstant(cs[0]) + EncodePool(cs[1..])
    ensures PoolSlots(cs) == Slots(cs[0]) + PoolSlots(cs[1..])
  {
  }

  /** Slots before the first index hold no constant. */
  lemma {:induction false} NothingBefore(cs: seq<Constant>, first: nat, slot: nat)
    requires slot < first
    ensures ConstantAt(cs, first, slot) == None
    decreases |cs|
  {
    if |cs| > 0 {
      NothingBefore(cs[1..], first + Slots(cs[0]), slot);
    }
  }

  /** The reader's pool after recording one constant at index `i`. */
  function Record(pool: Pool, i: nat, c: Constant): Pool
  {
    match c
    case Utf8(_, t) => pool.(utf8 := pool.utf8[i := Latin1(t)])
    case ClassRef(n) => pool.(classNameIndex := pool.classNameIndex[i := Value(n)])
    case _ => pool
  }

  lemma LoadStep(cs: seq<Constant>, i: nat, pool: Pool)
    requires |cs| > 0
    ensures Load(cs, i, pool) == Load(cs[1..], i + Slots(cs[0]), Record(pool, i, cs[0]))
  {
  }

  /** The Utf8 and Class tables the reader builds agree with the abstract
      pool, slot by slot. */
  lemma {:induction false} LoadAgrees(cs: seq<Constant>, i: nat, pool: Pool, slot: nat)
    requires forall k :: k in pool.utf8 ==> k < i
    requires forall k :: k in pool.classNameIndex ==> k < i
    requires slot >= i
    ensures var l := Load(cs, i, pool);
            && (slot in l.utf8 <==> ConstantAt(cs, i, slot).Some? && ConstantAt(cs, i, slot).value.Utf8?)
            && (slot in l.utf8 ==> l.utf8[slot] == Latin1(ConstantAt(cs, i, slot).value.text))
            && (slot in l.classNameIndex <==> ConstantAt(cs, i, slot).Some? && ConstantAt(cs, i, slot).value.ClassRef?)
            && (slot in l.classNameIndex ==> l.classNameIndex[slot] == Value(ConstantAt(cs, i, slot).value.nameIndex))
    decreases |cs|
  {
    if |cs| > 0 {
      var c := cs[0];
      var p := Record(pool, i, c);
      LoadStep(cs, i, pool);
      if slot < i + Slots(c) {
        NothingBefore(cs[1..], i + Slots(c), slot);
        LoadBelow(cs[1..], i + Slots(c), p, slot);
      } else {
        LoadAgrees(cs[1..], i + Slots(c), p, slot);
      }
    }
  }

  /** Loading constants from index `i` on leaves slots below `i` alone. */
  lemma {:induction false} LoadBelow(cs: seq<Constant>, i: nat, pool: Pool, slot: nat)
    requires slot < i
    ensures (slot in Load(cs, i, pool).utf8 <==> slot in pool.utf8)
    ensures slot in pool.utf8 ==> Load(cs, i, pool).utf8[slot] == pool.utf8[slot]
    ensures (slot in Load(cs, i, pool).classNameIndex <==> slot in pool.classNameIndex)
    ensures slot in pool.classNameIndex ==> Load(cs, i, pool).classNameIndex[slot] == pool.classNameIndex[slot]
    decreases |cs|
  {
    if |cs| > 0 {
      LoadStep(cs, i, pool);
      LoadBelow(cs[1..], i + Slots(cs[0]), Record(pool, i, cs[0]), slot);
    }
  }

  /** The reader's view of the encoded fields: the magic, the version and
      pool-count words, the pool, and the three words after it. */
  lemma EncodedLayout(img: Image, bytes: seq<u8>)
    requires ValidImage(img)
    requires Window(bytes, 0, Encode(img))
    ensures var n := |EncodePool(img.pool)|;
            && bytes[..4] == Magic
            && Window(bytes, 4, U2Bytes(img.minor))
            && Window(bytes, 6, U2Bytes(img.major))
            && Window(bytes, 8, U2Bytes(img.count))
            && Window(bytes, 10, EncodePool(img.pool))
            && Window(bytes, 10 + n, U2Bytes(img.accessFlags))
            && Window(bytes, 12 + n, U2Bytes(img.thisClass))
            && Window(bytes, 14 + n, U2Bytes(img.superClass))
  {
    var a := Magic;
    var b := a + U2Bytes(img.minor);
    var c := b + U2Bytes(img.major);
    var d := c + U2Bytes(img.count);
    var e := d + EncodePool(img.pool);
    var f := e + U2Bytes(img.accessFlags);
    var g := f + U2Bytes(img.thisClass);
    assert Encode(img) == g + U2Bytes(img.superClass);
    WindowSplit(bytes, 0, g, U2Bytes(img.superClass));
    WindowSplit(bytes, 0, f, U2Bytes(img.thisClass));
    WindowSplit(bytes, 0, e, U2Bytes(img.accessFlags));
    WindowSplit(bytes, 0, d, EncodePool(img.pool));
    WindowSplit(bytes, 0, c, U2Bytes(img.count));
    WindowSplit(bytes, 0, b, U2Bytes(img.major));
    WindowSplit(bytes, 0, a, U2Bytes(img.minor));
    assert bytes[..4] == bytes[0..4];
  }

  /** Resolving `super_class` in the loaded pool gives what the prefix
      names. */
  lemma ResolveLoaded(img: Image)
    requires ValidImage(img)
    ensures var r := ResolveSuper(Load(img.pool, 1, EmptyPool), Value(img.count), Value(img.superClass));
            var e := ExpectedHeader(img);
            && (r.Success? <==> e.Success?)
            && (r.Success? ==> e.value == Header(Value(img.accessFlags) as u16, r.value))
            && (r.Failure? ==> e.error == r.error)
  {
    var superIdx := Value(img.superClass);
    if superIdx != 0 && superIdx < 1 + PoolSlots(img.pool) {
      LoadAgrees(img.pool, 1, EmptyPool, superIdx);
      var nameIdx := ClassNameAt(img.pool, superIdx);
      if nameIdx != 0 {
        LoadAgrees(img.pool, 1, EmptyPool, nameIdx);
      }
    }
  }

  /** Round trip: reading the encoding of any well-formed prefix, whatever
      follows it, yields exactly the flags and superclass the prefix names,
      or the out-of-range error it calls for. `minor`, `major` and
      `this_class` have no influence. */
  lemma ReadEncoded(img: Image, rest: seq<u8>)
    requires ValidImage(img)
    ensures Read(Encode(img) + rest) == ExpectedHeader(img)
  {
    var bytes := Encode(img) + rest;
    var count := Value(img.count);
    var n := |EncodePool(img.pool)|;
    assert Window(bytes, 0, Encode(img)) by {
      assert bytes[0..|Encode(img)|] == Encode(img);
    }
    EncodedLayout(img, bytes);
    ReadU2Encoded(bytes, 4, img.minor);
    ReadU2Encoded(bytes, 6, img.major);
    ReadU2Encoded(bytes, 8, img.count);
    ReadEncodedPool(bytes, 10, 1, count, EmptyPool, img.pool);
    ReadU2Encoded(bytes, 10 + n, img.accessFlags);
    ReadU2Encoded(bytes, 12 + n, img.thisClass);
    ReadU2Encoded(bytes, 14 + n, img.superClass);
    ResolveLoaded(img);
  }
}

module ClassFileFacts {
  import opened Wrappers
  import opened ClassHeader
  import opened ClassFileImage

  /** A class whose pool holds its superclass name and a Class entry for it,
      with `super_class` pointing at that entry, reads back with exactly
      that superclass name and those flags. */
  lemma ReadsSuperName(name: seq<u8>, flags: u16, thisClass: U2, rest: seq<u8>)
    requires |name| < 0x1_0000
    ensures var img := Image(U2(0, 0), U2(0, 52), U2(0, 3),
                             [Utf8(ToU2(|name|), name), ClassRef(U2(0, 1))],
                             ToU2(flags as nat), thisClass, U2(0, 2));
            ValidImage(img) && Read(Encode(img) + rest) == Success(Header(flags, Some(Latin1(name))))
  {
    var img := Image(U2(0, 0), U2(0, 52), U2(0, 3),
                     [Utf8(ToU2(|name|), name), ClassRef(U2(0, 1))],
                     ToU2(flags as nat), thisClass, U2(0, 2));
    assert ValidConstants(img.pool);
    assert PoolSlots(img.pool) == 2 by {
      assert img.pool[1..] == [ClassRef(U2(0, 1))];
      assert PoolSlots([ClassRef(U2(0, 1))]) == 1 by {
        assert [ClassRef(U2(0, 1))][1..] == [];
      }
    }
    assert ConstantAt(img.pool, 1, 2) == Some(ClassRef(U2(0, 1))) by {
      assert img.pool[1..][0] == ClassRef(U2(0, 1));
    }
    ReadEncoded(img, rest);
  }

  /** A pool whose first tag is not one of the known tags makes the read
      fail with that tag, whatever follows. */
  lemma UnknownFirstTag(bytes: seq<u8>)
    requires |bytes| >= 11 && bytes[..4] == Magic
    requires bytes[8] as int * 0x100 + bytes[9] as int >= 2
    requires bytes[10] !in KnownTags
    ensures Read(bytes) == Failure(UnknownTag(bytes[10]))
  {
    ReadPoolUnknownTag(bytes, 10, 1, bytes[8] as int * 0x100 + bytes[9] as int, EmptyPool);
  }
}

=== FILE: class_header.dfy ===
/** `ClassHeader`: the two facts the plugins need from a compiled class, its
    access flags and the internal name of its superclass, read from the first
    part of a class file laid out as in chapter 4 of the Java Virtual Machine
    Specification (section 4.1, The ClassFile Structure, and section 4.4, The
    Constant Pool). */
module ClassHeader {
  import opened Wrappers

  newtype u8 = x: int | 0 <= x < 0x100
  newtype u16 = x: int | 0 <= x < 0x1_0000

  /** Bit masks of Table 4.1-B of the Java Virtual Machine Specification. */
  const ACC_INTERFACE: nat := 0x0200
  const ACC_ABSTRACT: nat := 0x0400

  /** The `magic` item of a ClassFile, 0xCAFEBABE. */
  const Magic: seq<u8> := [0xCA, 0xFE, 0xBA, 0xBE]

  /** The constant-pool tags of Table 4.4-B the reader understands. */
  const KnownTags: set<u8> := {1, 3, 4, 5, 6, 7, 8, 9, 10, 11, 12, 15, 16, 18, 19, 20}

  /** A parsed header; `superName` is `None` where Java holds `null`. */
  datatype Header = Header(accessFlags: u16, superName: Option<string>)

  /** Whether the single-bit `mask` is set in `flags`, i.e. `(flags & mask) != 0`. */
  predicate HasFlag(flags: u16, mask: nat)
    requires mask > 0
  {
    (flags as int / mask) % 2 == 1
  }

  predicate IsInterface(h: Header)
  {
    HasFlag(h.accessFlags, ACC_INTERFACE)
  }

  predicate IsAbstract(h: Header)
  {
    HasFlag(h.accessFlags, ACC_ABSTRACT)
  }

  /** The two flag tests are Java's `(accessFlags & mask) != 0`. */
  lemma FlagsAreBits(h: Header)
    ensures IsInterface(h) <==> h.accessFlags as bv16 & 0x0200 != 0
    ensures IsAbstract(h) <==> h.accessFlags as bv16 & 0x0400 != 0
  {
  }

  /** `isConcrete`: neither an interface nor abstract, i.e. neither of the
      two flag bits is set. */
  function IsConcrete(h: Header): (r: bool)
    ensures r <==> h.accessFlags as bv16 & 0x0600 == 0
  {
    FlagsAreBits(h);
    !IsInterface(h) && !IsAbstract(h)
  }

  /** Why reading failed. The first three are `IOException`s in Java; an index
      outside the constant pool is an `ArrayIndexOutOfBoundsException`. */
  datatype Error =
    | Truncated
    | BadMagic
    | UnknownTag(tag: u8)
    | IndexOutOfRange(index: nat)

  predicate IsIOException(e: Error)
  {
    !e.IndexOutOfRange?
  }

  /** A value read from the stream and the offset just after it. */
  datatype Cursor<T> = Cursor(value: T, next: nat)

  /** The constant-pool entries the reader keeps: Utf8 texts and the
      `name_index` of Class entries, both by pool index. */
  datatype Pool = Pool(utf8: map<nat, string>, classNameIndex: map<nat, nat>)

  const EmptyPool := Pool(map[], map[])

  /** `readUnsignedByte`. */
  function ReadU1(bytes: seq<u8>, pos: nat): (r: Result<Cursor<u8>, Error>)
    ensures r.Success? <==> pos < |bytes|
    ensures r.Success? ==> r.value == Cursor(bytes[pos], pos + 1)
    ensures r.Failure? ==> r.error == Truncated
  {
    if pos < |bytes| then Success(Cursor(bytes[pos], pos + 1)) else Failure(Truncated)
  }

  /** `readUnsignedShort`: big-endian. */
  function ReadU2(bytes: seq<u8>, pos: nat): (r: Result<Cursor<u16>, Error>)
    ensures r.Success? <==> pos + 2 <= |bytes|
    ensures r.Success? ==> r.value.next == pos + 2
    ensures r.Success? ==> r.value.value as int == bytes[pos] as int * 0x100 + bytes[pos + 1] as int
    ensures r.Failure? ==> r.error == Truncated
  {
    if pos + 2 <= |bytes| then
      Success(Cursor((bytes[pos] as int * 0x100 + bytes[pos + 1] as int) as u16, pos + 2))
    else Failure(Truncated)
  }

  /** `skipNBytes`: fails when fewer than `n` bytes remain. */
  function SkipBytes(bytes: seq<u8>, pos: nat, n: nat): (r: Result<nat, Error>)
    ensures r.Success? <==> pos + n <= |bytes|
    ensures r.Success? ==> r.value == pos + n
    ensures r.Failure? ==> r.error == Truncated
  {
    if pos + n <= |bytes| then Success(pos + n) else Failure(Truncated)
  }

  /** The text of a Utf8 entry, one character per byte (exact for ASCII;
      modified UTF-8 decoding is not modelled). */
  function Latin1(bs: seq<u8>): (s: string)
    ensures |s| == |bs|
  {
    seq(|bs|, k requires 0 <= k < |bs| => (bs[k] as int) as char)
  }

  /** Where the constant-pool loop stands after one entry: the offset after
      it, the next pool index and the entries kept so far. */
  datatype Step = Step(next: nat, index: nat, pool: Pool)

  /** The `switch` of the constant-pool loop for tag `tag` at index `i`,
      with `pos` just after the tag byte: a Utf8 text or a Class
      `name_index` is recorded at index `i`; every other known tag is skipped
      by its width; Long and Double advance the index by two. */
  function EntryBody(bytes: seq<u8>, pos: nat, tag: u8, i: nat, pool: Pool): (r: Result<Step, Error>)
    ensures r.Success? ==> pos <= r.value.next <= |bytes|
    ensures r.Success? ==> r.value.index == i + 1 || r.value.index == i + 2
    ensures r.Failure? ==> IsIOException(r.error)
    ensures r.Failure? && r.error.UnknownTag? ==> r.error.tag !in KnownTags
    ensures tag !in KnownTags ==> r == Failure(UnknownTag(tag))
  {
    match tag
    case 1 =>
      var len :- ReadU2(bytes, pos);
      var end :- SkipBytes(bytes, len.next, len.value as nat);
      Success(Step(end, i + 1, pool.(utf8 := pool.utf8[i := Latin1(bytes[len.next..end])])))
    case 3 | 4 =>
      var next :- SkipBytes(bytes, pos, 4);
      Success(Step(next, i + 1, pool))
    case 5 | 6 =>
      var next :- SkipBytes(bytes, pos, 8);
      Success(Step(next, i + 2, pool))
    case 7 =>
      var name :- ReadU2(bytes, pos);
      Success(Step(name.next, i + 1, pool.(classNameIndex := pool.classNameIndex[i := name.value as nat])))
    case 8 =>
      var str :- ReadU2(bytes, pos);
      Success(Step(str.next, i + 1, pool))
    case 9 | 10 | 11 | 12 | 18 =>
      var first :- ReadU2(bytes, pos);
      var second :- ReadU2(bytes, first.next);
      Success(Step(second.next, i + 1, pool))
    case 15 =>
      var kind :- ReadU1(bytes, pos);
      var ref :- ReadU2(bytes, kind.next);
      Success(Step(ref.next, i + 1, pool))
    case 16 | 19 | 20 =>
      var ref :- ReadU2(bytes, pos);
      Success(Step(ref.next, i + 1, pool))
    case _ =>
      Failure(UnknownTag(tag))
  }

  /** One iteration of the constant-pool loop at index `i` and offset `pos`:
      the tag byte, then the entry's body. */
  function ReadEntry(bytes: seq<u8>, pos: nat, i: nat, pool: Pool): (r: Result<Step, Error>)
    ensures r.Success? ==> pos < r.value.next <= |bytes|
    ensures r.Success? ==> r.value.index == i + 1 || r.value.index == i + 2
    ensures r.Failure? ==> IsIOException(r.error)
    ensures r.Failure? && r.error.UnknownTag? ==> r.error.tag !in KnownTags
    ensures pos < |bytes| && bytes[pos] !in KnownTags ==> r == Failure(UnknownTag(bytes[pos]))
  {
    var tag :- ReadU1(bytes, pos);
    EntryBody(bytes, tag.next, tag.value, i, pool)
  }

  /** The bytes after the tag that an entry of a known tag other than Utf8
      occupies, as Table 4.4-B and section 4.4 of the Java Virtual Machine
      Specification lay them out. */
  function BodyWidth(tag: u8): nat
  {
    match tag
    case 3 | 4 => 4                 // Integer, Float
    case 5 | 6 => 8                 // Long, Double
    case 7 | 8 | 16 | 19 | 20 => 2  // Class, String, MethodType, Module, Package
    case 9 | 10 | 11 | 12 | 18 => 4 // the three refs, NameAndType, InvokeDynamic
    case 15 => 3                    // MethodHandle
    case _ => 0
  }

  /** A known tag other than Utf8 is read exactly when its body fits, and
      consumes exactly its width. Only Long and Double take two pool
      indices, and only a Class entry records anything. */
  lemma EntryWidth(bytes: seq<u8>, pos: nat, i: nat, pool: Pool)
    requires pos < |bytes| && bytes[pos] in KnownTags && bytes[pos] != 1
    ensures var r := ReadEntry(bytes, pos, i, pool);
            && (r.Success? <==> pos + 1 + BodyWidth(bytes[pos]) <= |bytes|)
            && (r.Success? ==> r.value.next == pos + 1 + BodyWidth(bytes[pos]))
            && (r.Success? ==> (r.value.index == i + 2 <==> bytes[pos] == 5 || bytes[pos] == 6))
            && (r.Success? && bytes[pos] != 7 ==> r.value.pool == pool)
            && (r.Success? && bytes[pos] == 7 ==>
                  r.value.pool == pool.(classNameIndex := pool.classNameIndex[i := bytes[pos + 1] as nat * 0x100 + bytes[pos + 2] as nat]))
  {
  }

  /** A Utf8 entry is a two-byte length and that many bytes of text, recorded
      at index `i`. */
  lemma Utf8Width(bytes: seq<u8>, pos: nat, i: nat, pool: Pool)
    requires pos < |bytes| && bytes[pos] == 1
    ensures var r := ReadEntry(bytes, pos, i, pool);
            && (r.Success? <==> pos + 3 <= |bytes| && pos + 3 + (bytes[pos + 1] as nat * 0x100 + bytes[pos + 2] as nat) <= |bytes|)
            && (r.Success? ==>
                  var end := pos + 3 + (bytes[pos + 1] as nat * 0x100 + bytes[pos + 2] as nat);
                  && r.value.next == end
                  && r.value.index == i + 1
                  && r.value.pool == pool.(utf8 := pool.utf8[i := Latin1(bytes[pos + 3..end])]))
  {
  }

  /** What the constant-pool loop can end in: an offset no earlier than
      where it started and within the bytes, or an `IOException`, an unknown
      tag being one outside the known tags. */
  predicate LoopResult(bytes: seq<u8>, pos: nat, r: Result<Cursor<Pool>, Error>)
  {
    && (r.Success? ==> pos <= r.value.next <= |bytes|)
    && (r.Failure? ==> IsIOException(r.error))
    && (r.Failure? && r.error.UnknownTag? ==> r.error.tag !in KnownTags)
  }

  /** The constant-pool loop from index `i` while it is below `count`: the
      loop test, then the tag byte (`ReadTag`), then the `switch` on it and
      the next iteration (`ReadBody`). */
  function ReadPool(bytes: seq<u8>, pos: nat, i: nat, count: nat, pool: Pool): (r: Result<Cursor<Pool>, Error>)
    // Past the count the loop reads nothing; every failure inside it is an
    // `IOException`, an unknown tag being one outside the known tags.
    ensures i >= count ==> r == Success(Cursor(pool, pos))
    ensures r.Failure? ==> IsIOException(r.error) && (r.error.UnknownTag? ==> r.error.tag !in KnownTags)
    decreases count - i, 2
  {
    if i >= count then Success(Cursor(pool, pos))
    else ReadTag(bytes, pos, i, count, pool)
  }

  function ReadTag(bytes: seq<u8>, pos: nat, i: nat, count: nat, pool: Pool): (r: Result<Cursor<Pool>, Error>)
    requires i < count
    ensures r.Failure? ==> IsIOException(r.error) && (r.error.UnknownTag? ==> r.error.tag !in KnownTags)
    decreases count - i, 1
  {
    var tag :- ReadU1(bytes, pos);
    ReadBody(bytes, tag.next, tag.value, i, count, pool)
  }

  function ReadBody(bytes: seq<u8>, pos: nat, tag: u8, i: nat, count: nat, pool: Pool): (r: Result<Cursor<Pool>, Error>)
    requires i < count
    ensures r.Failure? ==> IsIOException(r.error) && (r.error.UnknownTag? ==> r.error.tag !in KnownTags)
    decreases count - i, 0
  {
    var step :- EntryBody(bytes, pos, tag, i, pool);
    ReadPool(bytes, step.next, step.index, count, step.pool)
  }

  /** Below the count, the loop stops where the entry fails to read, and
      otherwise carries on after it. */
  lemma ReadPoolStep(bytes: seq<u8>, pos: nat, i: nat, count: nat, pool: Pool)
    requires pos <= |bytes| && i < count
    ensures var e := ReadEntry(bytes, pos, i, pool);
            && (e.Failure? ==> ReadPool(bytes, pos, i, count, pool) == Failure(e.error))
            && (e.Success? ==> ReadPool(bytes, pos, i, count, pool)
                                == ReadPool(bytes, e.value.next, e.value.index, count, e.value.pool))
  {
    if pos < |bytes| {
      assert ReadPool(bytes, pos, i, count, pool) == ReadBody(bytes, pos + 1, bytes[pos], i, count, pool);
    }
  }

  /** One entry records at most index `i`, and keeps every other recorded
      entry as it was. */
  lemma EntryKeys(bytes: seq<u8>, pos: nat, i: nat, pool: Pool)
    requires ReadEntry(bytes, pos, i, pool).Success?
    ensures var p := ReadEntry(bytes, pos, i, pool).value.pool;
            && p.utf8.Keys <= pool.utf8.Keys + {i}
            && p.classNameIndex.Keys <= pool.classNameIndex.Keys + {i}
            && (forall k :: k in pool.utf8 && k != i ==> k in p.utf8 && p.utf8[k] == pool.utf8[k])
  {
  }

  /** The loop ends within the bytes, no earlier than it started, or fails
      with an `IOException`, an unknown tag being one outside the known
      tags. */
  lemma {:induction false} ReadPoolOutcome(bytes: seq<u8>, pos: nat, i: nat, count: nat, pool: Pool)
    requires pos <= |bytes|
    ensures LoopResult(bytes, pos, ReadPool(bytes, pos, i, count, pool))
    decreases count - i
  {
    if i < count {
      ReadPoolStep(bytes, pos, i, count, pool);
      var e := ReadEntry(bytes, pos, i, pool);
      if e.Success? {
        ReadPoolOutcome(bytes, e.value.next, e.value.index, count, e.value.pool);
      }
    }
  }

  /** Below the count, a tag outside the known ones stops the loop with
      that tag. */
  lemma ReadPoolUnknownTag(bytes: seq<u8>, pos: nat, i: nat, count: nat, pool: Pool)
    requires pos < |bytes| && i < count && bytes[pos] !in KnownTags
    ensures ReadPool(bytes, pos, i, count, pool) == Failure(UnknownTag(bytes[pos]))
  {
    ReadPoolStep(bytes, pos, i, count, pool);
  }

  /** The pool loop records entries only at the indices it visits, from `i`
      up to `count`, and never disturbs an entry below `i`. */
  lemma {:induction false} PoolKeys(bytes: seq<u8>, pos: nat, i: nat, count: nat, pool: Pool)
    requires pos <= |bytes|
    requires ReadPool(bytes, pos, i, count, pool).Success?
    ensures var p := ReadPool(bytes, pos, i, count, pool).value.value;
            && (forall k :: k in pool.utf8 && k < i ==> k in p.utf8 && p.utf8[k] == pool.utf8[k])
            && (forall k :: k in p.utf8 ==> k in pool.utf8 || i <= k < count)
            && (forall k :: k in p.classNameIndex ==> k in pool.classNameIndex || i <= k < count)
    decreases count - i
  {
    if i < count {
      ReadPoolStep(bytes, pos, i, count, pool);
      var step := ReadEntry(bytes, pos, i, pool).value;
      EntryKeys(bytes, pos, i, pool);
      PoolKeys(bytes, step.next, step.index, count, step.pool);
    }
  }

  /** Resolves `super_class` through the Class entry to its Utf8 name. Index 0
      means no superclass; a Class slot never filled, or filled with a
      `name_index` of 0, also gives none, as does a `name_index` naming a slot
      that holds no Utf8 entry. Indices at or beyond the pool size are out of
      range of Java's arrays. */
  function ResolveSuper(pool: Pool, count: nat, superIdx: nat): (r: Result<Option<string>, Error>)
    ensures superIdx == 0 ==> r == Success(None)
    ensures superIdx >= count && superIdx != 0 ==> r == Failure(IndexOutOfRange(superIdx))
    ensures r.Success? && r.value.Some? ==>
              superIdx in pool.classNameIndex
              && pool.classNameIndex[superIdx] in pool.utf8
              && r.value.value == pool.utf8[pool.classNameIndex[superIdx]]
    // A Class slot that was never filled reads as name index 0: no
    // superclass.
    ensures 0 < superIdx < count && (superIdx !in pool.classNameIndex || pool.classNameIndex[superIdx] == 0) ==>
              r == Success(None)
    // A name index inside the pool gives its Utf8 text, when there is one.
    ensures 0 < superIdx < count && superIdx in pool.classNameIndex && 0 < pool.classNameIndex[superIdx] < count ==>
              r == Success(if pool.classNameIndex[superIdx] in pool.utf8 then Some(pool.utf8[pool.classNameIndex[superIdx]]) else None)
    // A name index at or beyond the pool size is out of range of the Utf8
    // array.
    ensures 0 < superIdx < count && superIdx in pool.classNameIndex && pool.classNameIndex[superIdx] >= count ==>
              r == Failure(IndexOutOfRange(pool.classNameIndex[superIdx]))
  {
    if superIdx == 0 then Success(None)
    else if superIdx >= count then Failure(IndexOutOfRange(superIdx))
    else
      var nameIdx := if superIdx in pool.classNameIndex then pool.classNameIndex[superIdx] else 0;
      if nameIdx == 0 then Success(None)
      else if nameIdx >= count then Failure(IndexOutOfRange(nameIdx))
      else Success(if nameIdx in pool.utf8 then Some(pool.utf8[nameIdx]) else None)
  }

  /** `ClassHeader.read`: magic, minor and major version, the constant pool,
      then `access_flags`, `this_class` (skipped) and `super_class`. */
  function Read(bytes: seq<u8>): (r: Result<Header, Error>)
    ensures |bytes| < 4 ==> r == Failure(Truncated)
    ensures |bytes| >= 4 && bytes[..4] != Magic ==> r == Failure(BadMagic)
    ensures r.Success? ==> |bytes| >= 16 && bytes[..4] == Magic
    ensures r.Failure? && r.error.UnknownTag? ==> r.error.tag !in KnownTags
  {
    var afterMagic :- SkipBytes(bytes, 0, 4);
    if bytes[..4] != Magic then Failure(BadMagic)
    else
      var minor :- ReadU2(bytes, afterMagic);
      var major :- ReadU2(bytes, minor.next);
      var count :- ReadU2(bytes, major.next);
      ReadPoolOutcome(bytes, count.next, 1, count.value as nat, EmptyPool);
      var pool :- ReadPool(bytes, count.next, 1, count.value as nat, EmptyPool);
      var access :- ReadU2(bytes, pool.next);
      var thisClass :- ReadU2(bytes, access.next);
      var superClass :- ReadU2(bytes, thisClass.next);
      var superName :- ResolveSuper(pool.value, count.value as nat, superClass.value as nat);
      Success(Header(access.value, superName))
  }
}

=== FILE: class_names.dfy ===
/** The name helpers of `ClassFileUtils`: conversion between the dotted
    names users write (`a.b.C`) and the internal names class files use
    (`a/b/C`), stripping `.class` from entry paths, and parsing the
    comma-separated base-class option. */
module ClassNames {
  import opened Wrappers
  import opened Text

  /** `toDotted`: every '/' becomes '.', nothing else changes. */
  function ToDotted(internalName: string): (r: string)
    ensures |r| == |internalName|
    ensures '/' !in r
    ensures forall i :: 0 <= i < |r| && internalName[i] != '/' ==> r[i] == internalName[i]
  {
    Replace(internalName, '/', '.')
  }

  /** `toInternal`: every '.' becomes '/', nothing else changes. */
  function ToInternal(dottedName: string): (r: string)
    ensures |r| == |dottedName|
    ensures '.' !in r
    ensures forall i :: 0 <= i < |r| && dottedName[i] != '.' ==> r[i] == dottedName[i]
  {
    Replace(dottedName, '.', '/')
  }

  /** A name without dots survives the trip to dotted form and back. */
  lemma ToDottedRoundTrip(s: string)
    requires '.' !in s
    ensures ToInternal(ToDotted(s)) == s
  {
    var d := ToDotted(s);
    forall i | 0 <= i < |s| ensures ToInternal(d)[i] == s[i] {
      if s[i] == '/' {
        assert d[i] == '.';
      } else {
        assert s[i] != '.';
      }
    }
  }

  /** A name without slashes survives the trip to internal form and back. */
  lemma ToInternalRoundTrip(s: string)
    requires '/' !in s
    ensures ToDotted(ToInternal(s)) == s
  {
    var n := ToInternal(s);
    forall i | 0 <= i < |s| ensures ToDotted(n)[i] == s[i] {
      if s[i] == '.' {
        assert n[i] == '/';
      } else {
        assert s[i] != '/';
      }
    }
  }

  const ClassSuffix: string := ".class"

  /** `formatKey`: the entry path without its last six characters, which for
      the `.class` entries the plugins pass is the internal class name.
      Shorter paths make Java's `substring` throw; no caller passes one. */
  function FormatKey(classFilePath: string): (r: string)
    requires |classFilePath| >= |ClassSuffix|
    ensures |r| + |ClassSuffix| == |classFilePath|
    ensures EndsWith(classFilePath, ClassSuffix) ==> r + ClassSuffix == classFilePath
  {
    classFilePath[..|classFilePath| - 6]
  }

  /** The key of `n.class` is `n`. */
  lemma FormatKeyOfClassFile(n: string)
    ensures FormatKey(n + ClassSuffix) == n
  {
    assert (n + ClassSuffix)[..|n|] == n;
  }

  /** Replacing '.' by '/' neither adds a comma nor exposes a character up
      to the space at either end. */
  lemma ToInternalKeepsShape(t: string)
    requires ',' !in t
    ensures ',' !in ToInternal(t)
    ensures TrimmedBy(t, IsTrimmable) ==> TrimmedBy(ToInternal(t), IsTrimmable)
  {
    var r := ToInternal(t);
    forall i | 0 <= i < |r| ensures r[i] != ',' {
      if t[i] != '.' {
        assert r[i] == t[i];
      }
    }
  }

  /** A base name as the option parser keeps it: non-empty, in internal
      form, without a comma and with nothing `trim` would remove. */
  predicate BaseToken(n: string)
  {
    |n| > 0 && '.' !in n && ',' !in n && TrimmedBy(n, IsTrimmable)
  }

  /** What one comma-separated piece of the option contributes: nothing
      when it trims to empty, else its trimmed text in internal form. */
  function PieceToken(piece: string): (r: seq<string>)
    requires ',' !in piece
    ensures |r| <= 1
    ensures forall i :: 0 <= i < |r| ==> BaseToken(r[i])
  {
    var t := Trim(piece);
    ToInternalKeepsShape(t);
    if |t| > 0 then [ToInternal(t)] else []
  }

  /** The kept tokens of the base-class option, in order: each piece trimmed,
      empty ones dropped, the rest converted to internal form. */
  function BaseTokens(pieces: seq<string>): (r: seq<string>)
    requires forall i :: 0 <= i < |pieces| ==> ',' !in pieces[i]
    ensures |r| <= |pieces|
    ensures forall i :: 0 <= i < |r| ==> BaseToken(r[i])
  {
    if |pieces| == 0 then []
    else PieceToken(pieces[0]) + BaseTokens(pieces[1..])
  }

  /** `parseBaseClasses`: a missing or blank option gives no bases; otherwise
      the non-empty trimmed comma-separated tokens, in order, in internal
      form. (Java's `split(",")` also drops trailing empty pieces, which the
      emptiness filter drops anyway.) */
  function ParseBaseClasses(input: Option<string>): (r: seq<string>)
    ensures input.None? || IsBlank(input.value) ==> r == []
    ensures forall i :: 0 <= i < |r| ==> BaseToken(r[i])
  {
    if input.None? || IsBlank(input.value) then []
    else BaseTokens(SplitAll(input.value, ','))
  }

  /** Base names as a user writes them in the option: each non-empty,
      without a comma, not starting with whitespace and with nothing `trim`
      would remove. */
  predicate OptionNames(names: seq<string>)
  {
    forall i :: 0 <= i < |names| ==>
      |names[i]| > 0 && ',' !in names[i] && TrimmedBy(names[i], IsTrimmable) && !IsWhitespace(names[i][0])
  }

  /** Internal form of every name, in order. */
  function AllToInternal(names: seq<string>): (r: seq<string>)
    ensures |r| == |names|
    ensures forall i :: 0 <= i < |r| ==> r[i] == ToInternal(names[i])
  {
    seq(|names|, i requires 0 <= i < |names| => ToInternal(names[i]))
  }

  lemma AllToInternalCons(names: seq<string>)
    requires |names| > 0
    ensures AllToInternal(names) == [ToInternal(names[0])] + AllToInternal(names[1..])
  {
  }

  /** Pieces that are already option names are kept one for one. */
  lemma {:induction false} BaseTokensOfNames(names: seq<string>)
    requires OptionNames(names)
    ensures BaseTokens(names) == AllToInternal(names)
    decreases |names|
  {
    if |names| > 0 {
      assert Trim(names[0]) == names[0];
      BaseTokensOfNames(names[1..]);
      AllToInternalCons(names);
    }
  }

  /** Writing base names comma-separated and parsing the option gives back
      exactly those names, in the same order, in internal form. */
  lemma ParseJoinedBaseClasses(names: seq<string>)
    requires |names| >= 1
    requires OptionNames(names)
    ensures ParseBaseClasses(Some(Join(names, ','))) == AllToInternal(names)
  {
    var joined := Join(names, ',');
    JoinStart(names, ',');
    assert !IsBlank(joined);
    SplitJoin(names, ',');
    BaseTokensOfNames(names);
  }

  /** `trim` applied to every piece, in order. */
  function TrimAll(pieces: seq<string>): (r: seq<string>)
    ensures |r| == |pieces|
    ensures forall i :: 0 <= i < |r| ==> r[i] == Trim(pieces[i])
  {
    seq(|pieces|, i requires 0 <= i < |pieces| => Trim(pieces[i]))
  }

  /** The non-empty texts of `xs`, in order. */
  function NonEmpty(xs: seq<string>): (r: seq<string>)
    ensures |r| <= |xs|
    ensures forall x :: x in r <==> x in xs && |x| > 0
    decreases |xs|
  {
    if |xs| == 0 then []
    else
      assert xs == [xs[0]] + xs[1..];
      (if |xs[0]| > 0 then [xs[0]] else []) + NonEmpty(xs[1..])
  }

  lemma AllToInternalAppend(a: seq<string>, b: seq<string>)
    ensures AllToInternal(a + b) == AllToInternal(a) + AllToInternal(b)
  {
  }

  /** The first piece keeps its trimmed text when that is non-empty. */
  lemma NonEmptyCons(xs: seq<string>)
    requires |xs| > 0
    ensures NonEmpty(xs) == (if |xs[0]| > 0 then [xs[0]] else []) + NonEmpty(xs[1..])
  {
  }

  lemma TrimAllTail(pieces: seq<string>)
    requires |pieces| > 0
    ensures TrimAll(pieces)[0] == Trim(pieces[0])
    ensures TrimAll(pieces)[1..] == TrimAll(pieces[1..])
  {
  }

  /** The option's tokens are its pieces trimmed, the empty ones dropped,
      and the rest converted to internal form. */
  lemma {:induction false} BaseTokensTrimFilter(pieces: seq<string>)
    requires forall i :: 0 <= i < |pieces| ==> ',' !in pieces[i]
    ensures BaseTokens(pieces) == AllToInternal(NonEmpty(TrimAll(pieces)))
    decreases |pieces|
  {
    if |pieces| > 0 {
      var ts := TrimAll(pieces);
      TrimAllTail(pieces);
      var head := if |ts[0]| > 0 then [ts[0]] else [];
      var rest := NonEmpty(ts[1..]);
      BaseTokensTrimFilter(pieces[1..]);
      assert BaseTokens(pieces) == PieceToken(pieces[0]) + BaseTokens(pieces[1..]);
      assert PieceToken(pieces[0]) == AllToInternal(head);
      NonEmptyCons(ts);
      AllToInternalAppend(head, rest);
    }
  }

  /** Any comma-free pieces written comma-separated, padded or empty ones
      included, parse to the trimmed non-empty pieces in internal form, in
      order; a blank option gives none. */
  lemma ParseJoinedPieces(pieces: seq<string>)
    requires forall i :: 0 <= i < |pieces| ==> ',' !in pieces[i]
    ensures ParseBaseClasses(Some(Join(pieces, ','))) ==
            if IsBlank(Join(pieces, ',')) then [] else AllToInternal(NonEmpty(TrimAll(pieces)))
  {
    var joined := Join(pieces, ',');
    if |pieces| >= 1 && !IsBlank(joined) {
      SplitJoin(pieces, ',');
      BaseTokensTrimFilter(pieces);
    }
  }
}

=== FILE: concrete_class_plugin.dfy ===
/** `CodegenConcreteClassPlugin`: for every requested base, the concrete
    classes of the module and its dependencies that extend it, written as a
    properties file. Dependencies whose precomputed index already covers
    every requested base are not scanned. */
module ConcreteClassPlugin {
  import opened Wrappers
  import opened ClassHeader
  import opened ClassNames
  import opened SortedSet
  import opened Resolver
  import opened Precomputed
  import opened HeaderStore
  import opened Output

  /** What the scans have gathered so far: the header store and the
      precomputed implementations per base. */
  datatype Collected = Collected(headers: Store, precomputed: Index)

  /** `prepareToScanJar`'s outcome: what was gathered, whether the index
      made the class scan unnecessary, and the error that stopped the class
      scan, if any. */
  datatype JarOutcome = JarOutcome(collected: Collected, usedIndex: bool, error: Option<Error>)

  /** The index is consulted only when precomputed indexes are enabled, the
      jar has one, and some base is requested. */
  predicate IndexConsulted(art: Artifact, requested: seq<string>, usePrecompiled: bool)
  {
    usePrecompiled && art.index.Some? && |requested| > 0
  }

  /** Every base in `allowed` is a key of the index once '.' is replaced by
      '/'. */
  ghost predicate Covers(props: map<string, string>, allowed: set<string>)
  {
    forall b :: b in allowed ==> exists k :: k in props && ToInternal(k) == b
  }

  /** `prepareToScanJar`. */
  function PrepareToScanJar(parse: Parser, art: Artifact, st: Collected, requested: seq<string>, usePrecompiled: bool): (r: JarOutcome)
    requires ValidArtifact(art) && WellFormed(st.precomputed)
    ensures WellFormed(r.collected.precomputed)
    // The class scan is skipped exactly when the consulted index covers
    // every requested base; then no header is added.
    ensures r.usedIndex <==> IndexConsulted(art, requested, usePrecompiled) && Covers(art.index.value.props, Elems(requested))
    ensures r.usedIndex ==> r.collected.headers == st.headers && r.error.None?
    // Otherwise every class entry is scanned with `putIfAbsent`.
    ensures !r.usedIndex ==> r.collected.headers == ScanJar(parse, art.entries, st.headers).store
                             && r.error == ScanJar(parse, art.entries, st.headers).error
    ensures Keeps(st.headers, r.collected.headers)
    // A consulted index is merged into the precomputed implementations,
    // whether or not it covers every base; one that is not consulted
    // changes nothing precomputed.
    ensures IndexConsulted(art, requested, usePrecompiled) ==>
              r.collected.precomputed
              == ReadAllProperties(art.index.value.props, art.index.value.order, st.precomputed, Elems(requested)).1
    ensures !IndexConsulted(art, requested, usePrecompiled) ==> r.collected.precomputed == st.precomputed
  {
    var (complete, pre) :=
      if IndexConsulted(art, requested, usePrecompiled) then
        var ix := art.index.value;
        ReadAllProperties(ix.props, ix.order, st.precomputed, Elems(requested))
      else (false, st.precomputed);
    if complete then JarOutcome(Collected(st.headers, pre), true, None)
    else
      var js := ScanJar(parse, art.entries, st.headers);
      JarOutcome(Collected(js.store, pre), false, js.error)
  }

  /** No class entry of the jar fails to parse with anything but an
      `IOException`. */
  ghost predicate NoFatalEntry(parse: Parser, art: Artifact)
  {
    forall f :: f in art.entries && IsClassFile(f) && parse(f.bytes).Failure? ==> IsIOException(parse(f.bytes).error)
  }

  /** `processArtifact`: only a present regular file of type "jar" (in any
      letter case) is opened. An `IOException` from it is logged and what
      it had gathered stays; an index outside a constant pool is not an
      `IOException` and aborts the build. */
  function ProcessArtifact(parse: Parser, art: Artifact, st: Collected, requested: seq<string>, usePrecompiled: bool): (r: Result<Collected, Error>)
    requires ValidArtifact(art) && WellFormed(st.precomputed)
    ensures !(art.isFile && IsJarIgnoringCase(art.kind)) ==> r == Success(st)
    ensures r.Failure? ==> r.error.IndexOutOfRange?
    ensures r.Success? ==> WellFormed(r.value.precomputed) && Keeps(st.headers, r.value.headers)
    ensures art.isFile && IsJarIgnoringCase(art.kind) ==>
              var o := PrepareToScanJar(parse, art, st, requested, usePrecompiled);
              (r.Success? <==> o.error.None? || IsIOException(o.error.value))
              && (r.Success? ==> r.value == o.collected)
    // Only a class entry whose parse fails with something other than an
    // `IOException` can abort the build.
    ensures NoFatalEntry(parse, art) ==> r.Success?
  {
    if !(art.isFile && IsJarIgnoringCase(art.kind)) then Success(st)
    else
      var o := PrepareToScanJar(parse, art, st, requested, usePrecompiled);
      if o.error.Some? && !IsIOException(o.error.value) then Failure(o.error.value)
      else Success(o.collected)
  }

  /** The artifact loop of `execute`, in artifact order. */
  function ProcessArtifacts(parse: Parser, arts: seq<Artifact>, st: Collected, requested: seq<string>, usePrecompiled: bool): (r: Result<Collected, Error>)
    requires forall i :: 0 <= i < |arts| ==> ValidArtifact(arts[i])
    requires WellFormed(st.precomputed)
    ensures r.Failure? ==> r.error.IndexOutOfRange?
    ensures r.Success? ==> WellFormed(r.value.precomputed) && Keeps(st.headers, r.value.headers)
    // The loop succeeds whenever no jar holds a fatal class entry.
    ensures (forall i :: 0 <= i < |arts| ==> NoFatalEntry(parse, arts[i])) ==> r.Success?
    decreases |arts|
  {
    if |arts| == 0 then Success(st)
    else
      assert forall i :: 0 <= i < |arts[1..]| ==> arts[1..][i] == arts[i + 1];
      var next :- ProcessArtifact(parse, arts[0], st, requested, usePrecompiled);
      ProcessArtifacts(parse, arts[1..], next, requested, usePrecompiled)
  }

  /** The classes of the store that really extend `base`. */
  ghost function Descendants(headers: Store, base: string): set<string>
  {
    set k | k in headers && Descends(headers, base, k)
  }

  /** What `gatherConcreteClasses` promises of one base's implementations:
      sorted, holding the base's precomputed names, and otherwise only real
      descendants; all of them when every chain is within the hop bound. */
  ghost predicate Gathered(headers: Store, pre: Index, base: string, impls: seq<string>)
  {
    && Sorted(impls)
    && Prior(pre, base) <= Elems(impls) <= Prior(pre, base) + Descendants(headers, base)
    && (Shallow(headers, base) ==> Elems(impls) == Prior(pre, base) + Descendants(headers, base))
  }

  /** Where `gatherConcreteClasses` stands once the classes in `done` are
      visited: the names are sorted and hold the precomputed ones, every
      other name is a real descendant, the cache is sound (and exact when
      every chain is within the hop bound), and then every visited
      descendant has been added. */
  ghost predicate GatherState(headers: Store, pre: Index, base: string, done: set<string>, cache: Cache, services: seq<string>)
  {
    && Sorted(services)
    && Prior(pre, base) <= Elems(services)
    && (forall s :: s in services && s !in Prior(pre, base) ==> ConcreteIn(headers, s) && Descends(headers, base, s))
    && TrueSound(headers, base, cache)
    && (Shallow(headers, base) ==> Exact(headers, base, cache))
    && (Shallow(headers, base) ==> forall k :: k in done && Descends(headers, base, k) ==> k in services)
  }

  /** One iteration of `gatherConcreteClasses`: a concrete class the walk
      accepts is added; any other class changes nothing but the cache. */
  method VisitClass(className: string, headers: Store, pre: Index, base: string, ghost done: set<string>, cache: Cache, services: seq<string>)
    returns (cache': Cache, services': seq<string>)
    requires className in headers
    requires GatherState(headers, pre, base, done, cache, services)
    ensures GatherState(headers, pre, base, done + {className}, cache', services')
    ensures Elems(services) <= Elems(services') <= Elems(services) + {className}
  {
    cache', services' := cache, services;
    if IsConcrete(headers[className]) {
      var isSub;
      isSub, cache' := IsSubclassOfBase(className, headers, cache, base, KeepExisting);
      if isSub {
        services' := Insert(services, className);
        forall s | s in services' ensures s in services || s == className {
          assert s in Elems(services');
        }
        forall s | s in services ensures s in services' {
          assert s in Elems(services);
        }
      }
    }
  }

  /** `gatherConcreteClasses` with its fresh cache: the base's precomputed
      names, plus every concrete class of the store the walk accepts, with
      the classes visited in the store's unspecified order. */
  method GatherConcreteClasses(base: string, headers: Store, pre: Index) returns (services: seq<string>)
    requires WellFormed(pre)
    ensures Sorted(services)
    ensures Prior(pre, base) <= Elems(services)
    // Nothing but a real descendant is added; in particular no interface
    // or abstract class.
    ensures forall s :: s in services && s !in Prior(pre, base) ==> ConcreteIn(headers, s) && Descends(headers, base, s)
    // With every chain within the hop bound, every descendant is found.
    ensures Shallow(headers, base) ==> forall k :: k in headers && Descends(headers, base, k) ==> k in services
  {
    var cache: Cache := map[];
    EmptyCacheExact(headers, base);
    services := if base in pre then pre[base] else [];
    var remaining := headers.Keys;
    ghost var done: set<string> := {};
    while remaining != {}
      invariant done + remaining == headers.Keys
      invariant GatherState(headers, pre, base, done, cache, services)
      decreases |remaining|
    {
      var className :| className in remaining;
      cache, services := VisitClass(className, headers, pre, base, done, cache, services);
      remaining := remaining - {className};
      done := done + {className};
    }
  }

  /** The requested bases without repeats, each where it first appears:
      the key order of the `LinkedHashMap` the results are put into. */
  function Distinct(xs: seq<string>): (r: seq<string>)
    ensures forall x :: x in r <==> x in xs
    decreases |xs|
  {
    if |xs| == 0 then []
    else
      var d := Distinct(xs[..|xs| - 1]);
      assert xs == xs[..|xs| - 1] + [xs[|xs| - 1]];
      if xs[|xs| - 1] in d then d else d + [xs[|xs| - 1]]
  }

  /** Requesting one more base adds it at the end unless it was requested
      before. */
  lemma DistinctAppend(xs: seq<string>, x: string)
    ensures Distinct(xs + [x]) == if x in xs then Distinct(xs) else Distinct(xs) + [x]
  {
    assert (xs + [x])[..|xs|] == xs;
  }

  /** Putting the next requested base keeps the rows in first-request
      order. */
  lemma PutRowInOrder(rows: seq<Row>, xs: seq<string>, base: string, impls: seq<string>)
    requires Bases(rows) == Distinct(xs)
    ensures Bases(PutRow(rows, base, impls)) == Distinct(xs + [base])
  {
    DistinctAppend(xs, base);
  }

  /** `gatherConcreteClasses`'s promises make up `Gathered`. */
  lemma GatheredOf(headers: Store, pre: Index, base: string, impls: seq<string>)
    requires Sorted(impls)
    requires Prior(pre, base) <= Elems(impls)
    requires forall s :: s in impls && s !in Prior(pre, base) ==> ConcreteIn(headers, s) && Descends(headers, base, s)
    requires Shallow(headers, base) ==> forall k :: k in headers && Descends(headers, base, k) ==> k in impls
    ensures Gathered(headers, pre, base, impls)
  {
    forall s | s in Elems(impls) ensures s in Prior(pre, base) + Descendants(headers, base) {
      if s !in Prior(pre, base) {
        assert s in impls;
        assert ConcreteIn(headers, s);
      }
    }
    if Shallow(headers, base) {
      forall k | k in Descendants(headers, base) ensures k in Elems(impls) {
        assert k in impls;
      }
    }
  }

  /** The plugin's configuration. */
  datatype Config = Config(baseClasses: Option<string>, usePrecompiled: bool)

  datatype Outcome =
    | NoClassesDir
    | Failed(error: Error)
    | Generated(headers: Store, precomputed: Index, rows: seq<Row>, content: string, write: bool)

  /** `execute`'s artifact loop on top of the project's own classes. */
  function ArtifactLoop(parse: Parser, config: Config, project: Project): Result<Collected, Error>
    requires forall i :: 0 <= i < |project.artifacts| ==> ValidArtifact(project.artifacts[i])
    requires ScanDirectory(parse, project.classes, map[]).Success?
  {
    ProcessArtifacts(parse, project.artifacts, Collected(ScanDirectory(parse, project.classes, map[]).value, map[]),
                     ParseBaseClasses(config.baseClasses), config.usePrecompiled)
  }

  /** `execute`, with the header parser as `parse` (`ClassHeader.Read` in
      the plugin). */
  method Execute(parse: Parser, config: Config, project: Project) returns (out: Outcome)
    requires forall i :: 0 <= i < |project.artifacts| ==> ValidArtifact(project.artifacts[i])
    // Without a classes directory nothing is scanned or written.
    ensures out.NoClassesDir? <==> !project.hasClassesDir
    // Any own class file that fails to parse aborts the build; from a jar
    // only an index outside a constant pool does.
    ensures project.hasClassesDir && ScanDirectory(parse, project.classes, map[]).Failure? ==>
              out == Failed(ScanDirectory(parse, project.classes, map[]).error)
    ensures out.Failed? && ScanDirectory(parse, project.classes, map[]).Success? ==> out.error.IndexOutOfRange?
    // Once the own classes parse, the build fails exactly when the artifact
    // loop does, and with its error; an `IOException` from a jar does not
    // stop it.
    ensures project.hasClassesDir && ScanDirectory(parse, project.classes, map[]).Success? ==>
              (out.Failed? <==> ArtifactLoop(parse, config, project).Failure?)
    ensures project.hasClassesDir && ScanDirectory(parse, project.classes, map[]).Success? && ArtifactLoop(parse, config, project).Failure? ==>
              out == Failed(ArtifactLoop(parse, config, project).error)
    ensures project.hasClassesDir && ScanDirectory(parse, project.classes, map[]).Success?
            && (forall i :: 0 <= i < |project.artifacts| ==> NoFatalEntry(parse, project.artifacts[i])) ==>
              out.Generated?
    // Own classes are stored first, and no jar replaces them.
    ensures out.Generated? ==> ScanDirectory(parse, project.classes, map[]).Success?
    ensures out.Generated? && ScanDirectory(parse, project.classes, map[]).Success? ==>
              Keeps(ScanDirectory(parse, project.classes, map[]).value, out.headers)
    // The store and the precomputed implementations are what the artifact
    // loop gathers, in artifact order, on top of the own classes.
    ensures out.Generated? && ScanDirectory(parse, project.classes, map[]).Success? ==>
              ArtifactLoop(parse, config, project) == Success(Collected(out.headers, out.precomputed))
    // One row per requested base, in the order the bases were first
    // requested, each gathered for that base.
    ensures out.Generated? ==> Bases(out.rows) == Distinct(ParseBaseClasses(config.baseClasses))
    ensures out.Generated? ==> forall i :: 0 <= i < |out.rows| ==> Gathered(out.headers, out.precomputed, out.rows[i].base, out.rows[i].impls)
    // The file is rewritten only when its text changes.
    ensures out.Generated? ==> out.content == PropertiesContent(out.rows)
    ensures out.Generated? ==> (out.write <==> project.existing != Some(out.content))
  {
    if !project.hasClassesDir {
      return NoClassesDir;
    }
    var requested := ParseBaseClasses(config.baseClasses);
    var own := ScanDirectory(parse, project.classes, map[]);
    if own.Failure? {
      return Failed(own.error);
    }
    var collected := ProcessArtifacts(parse, project.artifacts, Collected(own.value, map[]), requested, config.usePrecompiled);
    if collected.Failure? {
      return Failed(collected.error);
    }
    var headers := collected.value.headers;
    var pre := collected.value.precomputed;
    var rows := GatherAll(requested, headers, pre);
    var content := PropertiesContent(rows);
    return Generated(headers, pre, rows, content, ShouldWrite(content, project.existing));
  }

  /** Within the hop bound, what `gatherConcreteClasses` promises fixes its
      result: the base's precomputed names and descendants, in `TreeSet`
      order. */
  lemma GatheredUnique(headers: Store, pre: Index, base: string, a: seq<string>, b: seq<string>)
    requires Shallow(headers, base)
    requires Gathered(headers, pre, base, a) && Gathered(headers, pre, base, b)
    ensures a == b
  {
    SortedUnique(a, b);
  }

  /** Two row lists for the same bases, each row gathered for its base
      within the hop bound, are equal: the generated rows do not depend on
      the order the store is visited in. */
  lemma RowsUnique(headers: Store, pre: Index, rows1: seq<Row>, rows2: seq<Row>)
    requires Bases(rows1) == Bases(rows2)
    requires forall i :: 0 <= i < |rows1| ==> Shallow(headers, rows1[i].base)
    requires forall i :: 0 <= i < |rows1| ==> Gathered(headers, pre, rows1[i].base, rows1[i].impls)
    requires forall i :: 0 <= i < |rows2| ==> Gathered(headers, pre, rows2[i].base, rows2[i].impls)
    ensures rows1 == rows2
  {
    forall i | 0 <= i < |rows1| ensures rows1[i] == rows2[i] {
      assert rows1[i].base == Bases(rows1)[i] == Bases(rows2)[i] == rows2[i].base;
      GatheredUnique(headers, pre, rows1[i].base, rows1[i].impls, rows2[i].impls);
    }
  }

  /** The per-base loop of `execute`: each requested base, gathered with a
      fresh cache and put into the `LinkedHashMap`. */
  method GatherAll(requested: seq<string>, headers: Store, pre: Index) returns (rows: seq<Row>)
    requires WellFormed(pre)
    ensures Bases(rows) == Distinct(requested)
    ensures forall j :: 0 <= j < |rows| ==> Gathered(headers, pre, rows[j].base, rows[j].impls)
  {
    rows := [];
    for i := 0 to |requested|
      invariant Bases(rows) == Distinct(requested[..i])
      invariant forall row :: row in rows ==> Gathered(headers, pre, row.base, row.impls)
    {
      var services := GatherConcreteClasses(requested[i], headers, pre);
      GatheredOf(headers, pre, requested[i], services);
      PutRowInOrder(rows, requested[..i], requested[i], services);
      PutRowRows(rows, requested[i], services);
      assert requested[..i + 1] == requested[..i] + [requested[i]];
      rows := PutRow(rows, requested[i], services);
    }
    assert requested[..|requested|] == requested;
    forall j | 0 <= j < |rows| ensures Gathered(headers, pre, rows[j].base, rows[j].impls) {
      assert rows[j] in rows;
    }
  }
}

=== FILE: header_store.dfy ===
/** Building the header store, the map from internal class name to parsed
    header that both plugins walk. Own-module class files are stored with
    `put`, so a later file wins; jar entries with `putIfAbsent`, so the
    first header stored under a name is never replaced by a jar. */
module HeaderStore {
  import opened Wrappers
  import opened Text
  import opened ClassHeader
  import opened ClassNames
  import opened Resolver

  /** A file of the classes directory or an entry of a jar: its path
      (relative to the root, with '/' separators) and its bytes. */
  datatype ClassFile = ClassFile(path: string, bytes: seq<u8>)

  /** The parser the scans apply to each class file; the plugins pass
      `ClassHeader.Read`. The store rules below hold for any parser. */
  type Parser = seq<u8> -> Result<Header, Error>

  /** Only paths ending in `.class` are parsed. */
  predicate IsClassFile(f: ClassFile)
  {
    EndsWith(f.path, ClassSuffix)
  }

  /** The store key of a class file: its path without `.class`. */
  function KeyOf(f: ClassFile): string
    requires IsClassFile(f)
  {
    FormatKey(f.path)
  }

  /** The keys of the class files among `files`. */
  function ClassKeys(files: seq<ClassFile>): set<string>
  {
    set f | f in files && IsClassFile(f) :: KeyOf(f)
  }

  /** Every class file among `files` parses. */
  predicate AllParse(parse: Parser, files: seq<ClassFile>)
  {
    forall f :: f in files && IsClassFile(f) ==> parse(f.bytes).Success?
  }

  lemma ClassFilesSplit(parse: Parser, files: seq<ClassFile>)
    requires |files| > 0
    ensures ClassKeys(files) == (if IsClassFile(files[0]) then {KeyOf(files[0])} else {}) + ClassKeys(files[1..])
    ensures AllParse(parse, files) <==> (IsClassFile(files[0]) ==> parse(files[0].bytes).Success?) && AllParse(parse, files[1..])
  {
    assert files == [files[0]] + files[1..];
  }

  /** `scanDirectory`: every class file, in walk order, parsed and stored
      with `put`. The first file that fails to parse aborts the scan. */
  function ScanDirectory(parse: Parser, files: seq<ClassFile>, store: Store): (r: Result<Store, Error>)
    ensures r.Success? <==> AllParse(parse, files)
    ensures r.Failure? ==> exists f :: f in files && IsClassFile(f) && parse(f.bytes) == Failure(r.error)
    decreases |files|
  {
    if |files| == 0 then Success(store)
    else
      ClassFilesSplit(parse, files);
      if !IsClassFile(files[0]) then ScanDirectory(parse, files[1..], store)
      else
        var h := parse(files[0].bytes);
        if h.Failure? then Failure(h.error)
        else ScanDirectory(parse, files[1..], store[KeyOf(files[0]) := h.value])
  }

  /** A successful scan stores a header under exactly the old keys and the
      class files' keys. */
  lemma {:induction false} ScanDirectoryKeys(parse: Parser, files: seq<ClassFile>, store: Store)
    requires ScanDirectory(parse, files, store).Success?
    ensures ScanDirectory(parse, files, store).value.Keys == store.Keys + ClassKeys(files)
    decreases |files|
  {
    if |files| > 0 {
      ClassFilesSplit(parse, files);
      if !IsClassFile(files[0]) {
        ScanDirectoryKeys(parse, files[1..], store);
      } else {
        ScanDirectoryKeys(parse, files[1..], store[KeyOf(files[0]) := parse(files[0].bytes).value]);
      }
    }
  }

  /** The header a scan of `files` leaves under `k` with `put`: the one of
      the last class file with that key. */
  lemma {:induction false} ScanDirectoryLastWins(parse: Parser, files: seq<ClassFile>, store: Store, j: nat)
    requires ScanDirectory(parse, files, store).Success?
    requires j < |files| && IsClassFile(files[j])
    requires forall m :: j < m < |files| && IsClassFile(files[m]) ==> KeyOf(files[m]) != KeyOf(files[j])
    ensures var r := ScanDirectory(parse, files, store).value;
            KeyOf(files[j]) in r && r[KeyOf(files[j])] == parse(files[j].bytes).value
    decreases |files|
  {
    if !IsClassFile(files[0]) {
      ScanDirectoryLastWins(parse, files[1..], store, j - 1);
    } else {
      var next := store[KeyOf(files[0]) := parse(files[0].bytes).value];
      if j == 0 {
        ScanDirectoryKeeps(parse, files[1..], next, KeyOf(files[0]));
      } else {
        ScanDirectoryLastWins(parse, files[1..], next, j - 1);
      }
    }
  }

  /** A key no class file of `files` has keeps its header. */
  lemma {:induction false} ScanDirectoryKeeps(parse: Parser, files: seq<ClassFile>, store: Store, k: string)
    requires ScanDirectory(parse, files, store).Success?
    requires k in store
    requires forall m :: 0 <= m < |files| && IsClassFile(files[m]) ==> KeyOf(files[m]) != k
    ensures var r := ScanDirectory(parse, files, store).value;
            k in r && r[k] == store[k]
    decreases |files|
  {
    if |files| > 0 {
      if !IsClassFile(files[0]) {
        ScanDirectoryKeeps(parse, files[1..], store, k);
      } else {
        ScanDirectoryKeeps(parse, files[1..], store[KeyOf(files[0]) := parse(files[0].bytes).value], k);
      }
    }
  }

  /** The outcome of scanning a jar: the store as far as the scan got, and
      the error that stopped it, if any. */
  datatype JarScan = JarScan(store: Store, error: Option<Error>)

  /** `scanHeadersInJar` and `scanJar`: every class entry, in entry order,
      parsed and stored with `putIfAbsent`. The entry is parsed even when its
      key is already stored, so a malformed entry stops the scan either way;
      the headers stored before it stay. */
  function ScanJar(parse: Parser, entries: seq<ClassFile>, store: Store): (r: JarScan)
    // Nothing stored is replaced.
    ensures store.Keys <= r.store.Keys
    ensures forall k :: k in store ==> r.store[k] == store[k]
    // The scan stops exactly when a class entry fails to parse.
    ensures r.error.None? <==> AllParse(parse, entries)
    ensures r.error.Some? ==> exists f :: f in entries && IsClassFile(f) && parse(f.bytes) == Failure(r.error.value)
    decreases |entries|
  {
    if |entries| == 0 then JarScan(store, None)
    else
      ClassFilesSplit(parse, entries);
      if !IsClassFile(entries[0]) then ScanJar(parse, entries[1..], store)
      else
        var h := parse(entries[0].bytes);
        if h.Failure? then JarScan(store, Some(h.error))
        else
          var k := KeyOf(entries[0]);
          ScanJar(parse, entries[1..], if k in store then store else store[k := h.value])
  }

  /** A jar adds only its class entries' keys, and all of them when no entry
      fails. */
  lemma {:induction false} ScanJarKeys(parse: Parser, entries: seq<ClassFile>, store: Store)
    ensures var r := ScanJar(parse, entries, store);
            && r.store.Keys <= store.Keys + ClassKeys(entries)
            && (r.error.None? ==> r.store.Keys == store.Keys + ClassKeys(entries))
    decreases |entries|
  {
    if |entries| > 0 {
      ClassFilesSplit(parse, entries);
      if IsClassFile(entries[0]) && parse(entries[0].bytes).Success? {
        var k := KeyOf(entries[0]);
        ScanJarKeys(parse, entries[1..], if k in store then store else store[k := parse(entries[0].bytes).value]);
      } else if !IsClassFile(entries[0]) {
        ScanJarKeys(parse, entries[1..], store);
      }
    }
  }

  /** With `putIfAbsent` the first class entry with a new key decides its
      header. */
  lemma {:induction false} ScanJarFirstWins(parse: Parser, entries: seq<ClassFile>, store: Store, j: nat)
    requires ScanJar(parse, entries, store).error.None?
    requires j < |entries| && IsClassFile(entries[j]) && KeyOf(entries[j]) !in store
    requires forall m :: 0 <= m < j && IsClassFile(entries[m]) ==> KeyOf(entries[m]) != KeyOf(entries[j])
    ensures var r := ScanJar(parse, entries, store).store;
            KeyOf(entries[j]) in r && r[KeyOf(entries[j])] == parse(entries[j].bytes).value
    decreases |entries|
  {
    if j > 0 {
      if !IsClassFile(entries[0]) {
        ScanJarFirstWins(parse, entries[1..], store, j - 1);
      } else {
        var k0 := KeyOf(entries[0]);
        var next := if k0 in store then store else store[k0 := parse(entries[0].bytes).value];
        ScanJarFirstWins(parse, entries[1..], next, j - 1);
      }
    }
  }

  /** The scan stops at the first class entry that fails to parse, with
      that entry's error: the headers of the entries before it stay stored
      and no later entry is stored. */
  lemma {:induction false} ScanJarStopsAtFirstFailure(parse: Parser, entries: seq<ClassFile>, store: Store, j: nat)
    requires j < |entries| && IsClassFile(entries[j]) && parse(entries[j].bytes).Failure?
    requires forall m :: 0 <= m < j && IsClassFile(entries[m]) ==> parse(entries[m].bytes).Success?
    ensures ScanJar(parse, entries[..j], store).error.None?
    ensures ScanJar(parse, entries, store)
            == JarScan(ScanJar(parse, entries[..j], store).store, Some(parse(entries[j].bytes).error))
    decreases j
  {
    if j > 0 {
      assert entries[..j][1..] == entries[1..][..j - 1];
      assert entries[..j][0] == entries[0];
      if !IsClassFile(entries[0]) {
        ScanJarStopsAtFirstFailure(parse, entries[1..], store, j - 1);
      } else {
        var k0 := KeyOf(entries[0]);
        var next := if k0 in store then store else store[k0 := parse(entries[0].bytes).value];
        ScanJarStopsAtFirstFailure(parse, entries[1..], next, j - 1);
      }
    }
  }

  /** Every header stored in `a` is still stored, unchanged, in `b`. */
  predicate Keeps(a: Store, b: Store)
  {
    forall k :: k in a ==> k in b && b[k] == a[k]
  }

  /** `"jar".equalsIgnoreCase(s)`, folding ASCII letters. */
  predicate IsJarIgnoringCase(s: string)
  {
    |s| == 3 && (s[0] == 'j' || s[0] == 'J') && (s[1] == 'a' || s[1] == 'A') && (s[2] == 'r' || s[2] == 'R')
  }

  /** A dependency of the project: whether its file is present and a
      regular file, its declared type, its entries, and its precomputed
      index, already parsed into key/value pairs, with the order in which
      `stringPropertyNames` hands out the keys. */
  datatype Artifact = Artifact(isFile: bool, kind: string, entries: seq<ClassFile>, index: Option<PropertyIndex>)

  datatype PropertyIndex = PropertyIndex(props: map<string, string>, order: seq<string>)

  /** The key order lists exactly the keys. */
  predicate ValidIndex(ix: PropertyIndex)
  {
    && (forall k :: k in ix.props ==> k in ix.order)
    && (forall i :: 0 <= i < |ix.order| ==> ix.order[i] in ix.props)
  }

  predicate ValidArtifact(a: Artifact)
  {
    a.index.Some? ==> ValidIndex(a.index.value)
  }

  /** What the build gives a plugin: whether the classes directory exists,
      its class files in walk order, the dependencies, and the text of the
      plugin's existing output file, if there is one. */
  datatype Project = Project(hasClassesDir: bool, classes: seq<ClassFile>, artifacts: seq<Artifact>, existing: Option<string>)
}

=== FILE: nano_svc_list.dfy ===
/** `CodegenNanoSvcList`: the concrete classes of the module and its
    dependencies that extend the configured service type, written in dotted
    form as a newline-separated list. There is no precomputed index, every
    jar is scanned, and any failure aborts the build. */
module NanoSvcList {
  import opened Wrappers
  import opened ClassHeader
  import opened ClassNames
  import opened Resolver
  import opened HeaderStore
  import opened Output

  /** Only a present regular file whose type is exactly "jar" (letter case
      counts here) is scanned. */
  predicate Scanned(art: Artifact)
  {
    art.isFile && art.kind == "jar"
  }

  /** Every class entry of every scanned jar parses. */
  predicate JarsParse(parse: Parser, arts: seq<Artifact>)
  {
    forall i :: 0 <= i < |arts| && Scanned(arts[i]) ==> AllParse(parse, arts[i].entries)
  }

  /** The keys of the class entries of the scanned jars. */
  function JarKeys(arts: seq<Artifact>): set<string>
    decreases |arts|
  {
    if |arts| == 0 then {}
    else (if Scanned(arts[0]) then ClassKeys(arts[0].entries) else {}) + JarKeys(arts[1..])
  }

  lemma JarsParseSplit(parse: Parser, arts: seq<Artifact>)
    requires |arts| > 0
    ensures JarsParse(parse, arts) <==> (Scanned(arts[0]) ==> AllParse(parse, arts[0].entries)) && JarsParse(parse, arts[1..])
  {
    if JarsParse(parse, arts[1..]) && (Scanned(arts[0]) ==> AllParse(parse, arts[0].entries)) {
      forall i | 0 <= i < |arts| && Scanned(arts[i]) ensures AllParse(parse, arts[i].entries) {
        if i > 0 {
          assert arts[i] == arts[1..][i - 1];
        }
      }
    }
  }

  /** The artifact loop of `execute`: each scanned jar's class entries are
      stored with `putIfAbsent`, and the first entry that fails to parse
      aborts the build. */
  function ScanJars(parse: Parser, arts: seq<Artifact>, store: Store): (r: Result<Store, Error>)
    ensures r.Success? <==> JarsParse(parse, arts)
    // Nothing stored is replaced, and exactly the jars' class keys are
    // added.
    ensures r.Success? ==> Keeps(store, r.value) && r.value.Keys == store.Keys + JarKeys(arts)
    decreases |arts|
  {
    if |arts| == 0 then Success(store)
    else
      JarsParseSplit(parse, arts);
      if !Scanned(arts[0]) then ScanJars(parse, arts[1..], store)
      else
        var js := ScanJar(parse, arts[0].entries, store);
        ScanJarKeys(parse, arts[0].entries, store);
        if js.error.Some? then Failure(js.error.value)
        else ScanJars(parse, arts[1..], js.store)
  }

  /** The error that aborts the artifact loop is the parse error of a class
      entry of a scanned jar. */
  lemma {:induction false} ScanJarsFailure(parse: Parser, arts: seq<Artifact>, store: Store)
    requires ScanJars(parse, arts, store).Failure?
    ensures exists i, f :: 0 <= i < |arts| && Scanned(arts[i]) && f in arts[i].entries && IsClassFile(f)
                           && parse(f.bytes) == Failure(ScanJars(parse, arts, store).error)
    decreases |arts|
  {
    var e := ScanJars(parse, arts, store).error;
    var rest := store;
    if Scanned(arts[0]) {
      var js := ScanJar(parse, arts[0].entries, store);
      if js.error.Some? {
        var f :| f in arts[0].entries && IsClassFile(f) && parse(f.bytes) == Failure(js.error.value);
        assert Scanned(arts[0]) && f in arts[0].entries && IsClassFile(f) && parse(f.bytes) == Failure(e);
        return;
      }
      rest := js.store;
    }
    assert ScanJars(parse, arts, store) == ScanJars(parse, arts[1..], rest);
    ScanJarsFailure(parse, arts[1..], rest);
    var i, f :| 0 <= i < |arts[1..]| && Scanned(arts[1..][i]) && f in arts[1..][i].entries && IsClassFile(f)
                && parse(f.bytes) == Failure(e);
    assert arts[i + 1] == arts[1..][i];
  }

  /** The dotted names of the classes of the store that really extend
      `base`. */
  ghost function ServiceNames(headers: Store, base: string): set<string>
  {
    set k | k in headers && Descends(headers, base, k) :: ToDotted(k)
  }

  /** Where the class loop of `execute` stands once the classes in `done`
      are visited: `found` are the accepted ones, all real descendants,
      `services` their dotted names, and the cache is sound (exact when every
      chain is within the hop bound, and then every visited descendant has
      been accepted). */
  ghost predicate MatchState(headers: Store, base: string, done: set<string>, found: set<string>, cache: Cache, services: set<string>)
  {
    && found <= done
    && (forall k :: k in found ==> Descends(headers, base, k))
    && services == (set k | k in found :: ToDotted(k))
    && TrueSound(headers, base, cache)
    && (Shallow(headers, base) ==> Exact(headers, base, cache))
    && (Shallow(headers, base) ==> forall k :: k in done && Descends(headers, base, k) ==> k in found)
  }

  /** One iteration of the class loop: an interface or abstract class is
      skipped without consulting the cache; a concrete class the walk
      accepts adds its dotted name. */
  method VisitClass(className: string, headers: Store, base: string, ghost done: set<string>, ghost found: set<string>, cache: Cache, services: set<string>)
    returns (cache': Cache, services': set<string>, ghost found': set<string>)
    requires className in headers && className !in done
    requires MatchState(headers, base, done, found, cache, services)
    ensures MatchState(headers, base, done + {className}, found', cache', services')
    ensures services <= services' <= services + {ToDotted(className)}
  {
    cache', services', found' := cache, services, found;
    if !IsInterface(headers[className]) && !IsAbstract(headers[className]) {
      var isSub;
      isSub, cache' := IsSubclassOfBase(className, headers, cache, base, Overwrite);
      if isSub {
        services' := services + {ToDotted(className)};
        found' := found + {className};
      }
    }
  }

  /** The class loop of `execute` with its fresh cache, visiting the store
      in its unspecified order. */
  method MatchServices(headers: Store, base: string) returns (services: set<string>)
    // Every listed name is a real descendant's.
    ensures services <= ServiceNames(headers, base)
    // With every chain within the hop bound, all of them are listed.
    ensures Shallow(headers, base) ==> services == ServiceNames(headers, base)
  {
    var cache: Cache := map[];
    EmptyCacheExact(headers, base);
    services := {};
    ghost var found: set<string> := {};
    var remaining := headers.Keys;
    ghost var done: set<string> := {};
    while remaining != {}
      invariant done + remaining == headers.Keys && done !! remaining
      invariant MatchState(headers, base, done, found, cache, services)
      decreases |remaining|
    {
      var className :| className in remaining;
      cache, services, found := VisitClass(className, headers, base, done, found, cache, services);
      remaining := remaining - {className};
      done := done + {className};
    }
    forall s | s in services ensures s in ServiceNames(headers, base) {
      var k :| k in found && s == ToDotted(k);
      assert k in headers && Descends(headers, base, k);
    }
    if Shallow(headers, base) {
      forall s | s in ServiceNames(headers, base) ensures s in services {
        var k :| k in headers && Descends(headers, base, k) && s == ToDotted(k);
        assert k in found;
      }
    }
  }

  /** The members of a set, each once, in an unspecified order: the
      iteration order of a `HashSet`. */
  method Enumerate(s: set<string>) returns (xs: seq<string>)
    ensures forall x :: x in xs <==> x in s
    ensures forall i, j :: 0 <= i < j < |xs| ==> xs[i] != xs[j]
    ensures |xs| == |s|
  {
    xs := [];
    var rest := s;
    while rest != {}
      invariant rest <= s
      invariant forall x :: x in xs <==> x in s && x !in rest
      invariant forall i, j :: 0 <= i < j < |xs| ==> xs[i] != xs[j]
      invariant |xs| + |rest| == |s|
      decreases |rest|
    {
      var x :| x in rest;
      xs := xs + [x];
      rest := rest - {x};
    }
  }

  datatype Outcome =
    | NoClassesDir
    | Failed(error: Error)
    | Listed(headers: Store, services: set<string>, order: seq<string>, content: string, write: bool)

  /** `execute`, with the header parser as `parse` (`ClassHeader.Read` in
      the plugin). */
  method Execute(parse: Parser, base: string, project: Project) returns (out: Outcome)
    // Without a classes directory nothing is scanned or written.
    ensures out.NoClassesDir? <==> !project.hasClassesDir
    // Any class file or jar entry that fails to parse aborts the build.
    ensures project.hasClassesDir ==>
              (out.Failed? <==> ScanDirectory(parse, project.classes, map[]).Failure?
                                || !JarsParse(parse, project.artifacts))
    ensures project.hasClassesDir && ScanDirectory(parse, project.classes, map[]).Failure? ==>
              out == Failed(ScanDirectory(parse, project.classes, map[]).error)
    // Otherwise a jar entry that fails to parse aborts the build with the
    // error the jar loop stops on.
    ensures project.hasClassesDir && ScanDirectory(parse, project.classes, map[]).Success? && !JarsParse(parse, project.artifacts) ==>
              out == Failed(ScanJars(parse, project.artifacts, ScanDirectory(parse, project.classes, map[]).value).error)
    // Own classes are stored first and no jar replaces them; the store
    // holds exactly the own and the jars' class keys.
    ensures out.Listed? ==>
              var own := ScanDirectory(parse, project.classes, map[]).value;
              Keeps(own, out.headers) && out.headers.Keys == own.Keys + JarKeys(project.artifacts)
    // The store is exactly what the jar loop builds on the own classes.
    ensures out.Listed? ==>
              out.headers == ScanJars(parse, project.artifacts, ScanDirectory(parse, project.classes, map[]).value).value
    // Without the base type on the class path the list is empty.
    ensures out.Listed? && base !in out.headers ==> out.services == {} && out.content == ""
    // Otherwise only real descendants are listed, and all of them when
    // every chain is within the hop bound.
    ensures out.Listed? ==> out.services <= ServiceNames(out.headers, base)
    ensures out.Listed? && base in out.headers && Shallow(out.headers, base) ==>
              out.services == ServiceNames(out.headers, base)
    // The file lists each service once, joined by newlines, and is
    // rewritten only when its text changes.
    ensures out.Listed? ==> (forall s :: s in out.order <==> s in out.services)
                            && (forall i, j :: 0 <= i < j < |out.order| ==> out.order[i] != out.order[j])
    ensures out.Listed? ==> out.content == ServiceListContent(out.order)
    ensures out.Listed? ==> (out.write <==> project.existing != Some(out.content))
  {
    if !project.hasClassesDir {
      return NoClassesDir;
    }
    var own := ScanDirectory(parse, project.classes, map[]);
    if own.Failure? {
      return Failed(own.error);
    }
    var all := ScanJars(parse, project.artifacts, own.value);
    if all.Failure? {
      return Failed(all.error);
    }
    var headers := all.value;
    var services: set<string> := {};
    if base in headers {
      services := MatchServices(headers, base);
    }
    var order := Enumerate(services);
    var content := ServiceListContent(order);
    return Listed(headers, services, order, content, ShouldWrite(content, project.existing));
  }

  /** The early exit is not implied by the walk: a concrete class whose
      superclass is the base still descends from it when the base's own
      class file is absent, yet nothing is listed then. */
  lemma MissingBaseStillDescends(name: string, base: string)
    requires name != base
    ensures var headers := map[name := Header(0, Some(base))];
            base !in headers && ServiceNames(headers, base) == {ToDotted(name)}
  {
    var headers := map[name := Header(0, Some(base))];
    LeadsToBaseAtBase(headers, base);
    assert Descends(headers, base, name);
  }
}

=== FILE: output.dfy ===
/** The text the plugins write: the concrete-class plugin's properties file,
    one `base=impl1,impl2` line per requested base, and the service-list
    plugin's newline-separated list of services. A file is rewritten only
    when the new text differs from what is there. */
module Output {
  import opened Wrappers
  import opened Text
  import opened ClassNames
  import opened SortedSet
  import opened Precomputed

  /** One entry of the concrete-class plugin's result map: a base (internal
      name) and its implementations (internal names, in `TreeSet` order). */
  datatype Row = Row(base: string, impls: seq<string>)

  /** The value the result map holds for `base`, if any. */
  function Lookup(rows: seq<Row>, base: string): Option<seq<string>>
  {
    if |rows| == 0 then None
    else if rows[0].base == base then Some(rows[0].impls)
    else Lookup(rows[1..], base)
  }

  function Bases(rows: seq<Row>): (r: seq<string>)
    ensures |r| == |rows|
    ensures forall i :: 0 <= i < |rows| ==> r[i] == rows[i].base
  {
    seq(|rows|, i requires 0 <= i < |rows| => rows[i].base)
  }

  /** No base appears twice. */
  predicate DistinctBases(rows: seq<Row>)
  {
    forall i, j :: 0 <= i < j < |rows| ==> rows[i].base != rows[j].base
  }

  /** `LinkedHashMap.put`: a base already present keeps its position and
      takes the new value; a new base goes last. */
  function PutRow(rows: seq<Row>, base: string, impls: seq<string>): (r: seq<Row>)
    ensures base in Bases(rows) ==> Bases(r) == Bases(rows)
    ensures base !in Bases(rows) ==> Bases(r) == Bases(rows) + [base]
    ensures forall i :: 0 <= i < |rows| && rows[i].base != base ==> r[i] == rows[i]
    decreases |rows|
  {
    if |rows| == 0 then [Row(base, impls)]
    else if rows[0].base == base then [Row(base, impls)] + rows[1..]
    else
      var rest := PutRow(rows[1..], base, impls);
      assert rows == [rows[0]] + rows[1..];
      BasesPrepend(rows[0], rows[1..]);
      BasesPrepend(rows[0], rest);
      [rows[0]] + rest
  }

  lemma BasesPrepend(row: Row, rows: seq<Row>)
    ensures Bases([row] + rows) == [row.base] + Bases(rows)
  {
  }

  /** After a put the base maps to the new value. */
  lemma {:induction false} PutRowLookup(rows: seq<Row>, base: string, impls: seq<string>)
    ensures Lookup(PutRow(rows, base, impls), base) == Some(impls)
    decreases |rows|
  {
    if |rows| > 0 && rows[0].base != base {
      PutRowLookup(rows[1..], base, impls);
      assert PutRow(rows, base, impls) == [rows[0]] + PutRow(rows[1..], base, impls);
    }
  }

  /** A put leaves every other base mapped as it was. */
  lemma {:induction false} PutRowLookupOther(rows: seq<Row>, base: string, impls: seq<string>, other: string)
    requires other != base
    ensures Lookup(PutRow(rows, base, impls), other) == Lookup(rows, other)
    decreases |rows|
  {
    if |rows| > 0 {
      if rows[0].base != base {
        PutRowLookupOther(rows[1..], base, impls, other);
        assert PutRow(rows, base, impls) == [rows[0]] + PutRow(rows[1..], base, impls);
      } else {
        assert PutRow(rows, base, impls) == [Row(base, impls)] + rows[1..];
      }
    }
  }

  /** A put never makes a base appear twice. */
  lemma PutRowDistinct(rows: seq<Row>, base: string, impls: seq<string>)
    requires DistinctBases(rows)
    ensures DistinctBases(PutRow(rows, base, impls))
  {
    var r := PutRow(rows, base, impls);
    var bs := Bases(r);
    forall i, j | 0 <= i < j < |r| ensures r[i].base != r[j].base {
      assert r[i].base == bs[i] && r[j].base == bs[j];
      if j < |rows| {
        assert bs[i] == Bases(rows)[i] && bs[j] == Bases(rows)[j];
      } else {
        assert bs[i] == Bases(rows)[i];
        assert Bases(rows)[i] in Bases(rows);
      }
    }
  }

  /** A put leaves only the new row and rows that were there. */
  lemma {:induction false} PutRowRows(rows: seq<Row>, base: string, impls: seq<string>)
    ensures forall row :: row in PutRow(rows, base, impls) ==> row == Row(base, impls) || row in rows
    decreases |rows|
  {
    if |rows| > 0 && rows[0].base != base {
      PutRowRows(rows[1..], base, impls);
      assert PutRow(rows, base, impls) == [rows[0]] + PutRow(rows[1..], base, impls);
    }
  }

  /** Every name in dotted form, in order. */
  function AllToDotted(names: seq<string>): (r: seq<string>)
    ensures |r| == |names|
    ensures forall i :: 0 <= i < |r| ==> r[i] == ToDotted(names[i])
  {
    seq(|names|, i requires 0 <= i < |names| => ToDotted(names[i]))
  }

  /** The line of one row without its terminating newline: the dotted base,
      '=', and the dotted implementations joined by ','. With no
      implementations the line is `base=`. */
  function LineText(row: Row): string
  {
    ToDotted(row.base) + "=" + Join(AllToDotted(row.impls), ',')
  }

  /** `writeProperties`'s content: every row's line, each ending in a
      newline, in the map's order. */
  function PropertiesContent(rows: seq<Row>): (r: string)
    // No rows give the empty text; otherwise the text ends in a newline and
    // starts with the first row's line.
    ensures |rows| == 0 <==> r == ""
    ensures |rows| > 0 ==> r[|r| - 1] == '\n' && |LineText(rows[0])| < |r| && r[..|LineText(rows[0])|] == LineText(rows[0])
    decreases |rows|
  {
    if |rows| == 0 then "" else LineText(rows[0]) + "\n" + PropertiesContent(rows[1..])
  }

  function AllLineTexts(rows: seq<Row>): (r: seq<string>)
    ensures |r| == |rows|
    ensures forall i :: 0 <= i < |rows| ==> r[i] == LineText(rows[i])
  {
    seq(|rows|, i requires 0 <= i < |rows| => LineText(rows[i]))
  }

  /** Names as class files carry them: non-empty, in internal form (no
      '.'), and holding nothing that the properties format or the index
      reader would split on or strip. */
  predicate ClassName(n: string)
  {
    |n| > 0 && '.' !in n && ',' !in n && '=' !in n && '\n' !in n && TrimmedBy(n, IsWhitespace)
  }

  predicate RowNames(row: Row)
  {
    ClassName(row.base) && forall i :: 0 <= i < |row.impls| ==> ClassName(row.impls[i])
  }

  lemma ToDottedKeepsShape(n: string)
    requires ClassName(n)
    ensures |ToDotted(n)| > 0 && ',' !in ToDotted(n) && '=' !in ToDotted(n) && '\n' !in ToDotted(n)
    ensures TrimmedBy(ToDotted(n), IsWhitespace)
  {
    var d := ToDotted(n);
    forall i | 0 <= i < |d| ensures d[i] != ',' && d[i] != '=' && d[i] != '\n' {
      if n[i] != '/' {
        assert d[i] == n[i];
      }
    }
    assert d[0] == n[0] || d[0] == '.';
    assert d[|d| - 1] == n[|n| - 1] || d[|d| - 1] == '.';
  }

  /** A line holds no newline, so the content splits into one line per
      row. */
  lemma LineHasNoNewline(row: Row)
    requires RowNames(row)
    ensures '\n' !in LineText(row)
  {
    var names := AllToDotted(row.impls);
    forall i | 0 <= i < |names| ensures '\n' !in names[i] {
      ToDottedKeepsShape(row.impls[i]);
    }
    ToDottedKeepsShape(row.base);
    JoinAvoids(names, ',', '\n');
  }

  /** Joining pieces that avoid `c` with a separator other than `c` avoids
      `c`. */
  lemma {:induction false} JoinAvoids(xs: seq<string>, sep: char, c: char)
    requires sep != c
    requires forall i :: 0 <= i < |xs| ==> c !in xs[i]
    ensures c !in Join(xs, sep)
    decreases |xs|
  {
    if |xs| > 1 {
      JoinAvoids(xs[1..], sep, c);
    }
  }

  /** The written file splits at its newlines into exactly the rows' lines,
      in order, followed by the empty piece after the last newline. */
  lemma {:induction false} PropertiesLines(rows: seq<Row>)
    requires forall i :: 0 <= i < |rows| ==> RowNames(rows[i])
    ensures SplitAll(PropertiesContent(rows), '\n') == AllLineTexts(rows) + [""]
    decreases |rows|
  {
    if |rows| > 0 {
      PropertiesLines(rows[1..]);
      PropertiesLinesStep(rows);
    }
  }

  /** One more row in front adds its line in front of the pieces. */
  lemma PropertiesLinesStep(rows: seq<Row>)
    requires |rows| > 0 && RowNames(rows[0])
    requires SplitAll(PropertiesContent(rows[1..]), '\n') == AllLineTexts(rows[1..]) + [""]
    ensures SplitAll(PropertiesContent(rows), '\n') == AllLineTexts(rows) + [""]
  {
    var line, others := LineText(rows[0]), PropertiesContent(rows[1..]);
    assert PropertiesContent(rows) == line + ['\n'] + others;
    LineHasNoNewline(rows[0]);
    assert AllLineTexts(rows) == [line] + AllLineTexts(rows[1..]);
    SplitPrepend(line, others, AllLineTexts(rows[1..]), '\n');
  }

  /** A written line read back as a precomputed index entry: the key before
      the first '=' names the base, and the value's tokens are exactly the
      implementations, in order. */
  lemma IndexLineReadsBack(row: Row)
    requires RowNames(row)
    ensures var key := ToDotted(row.base);
            var value := Join(AllToDotted(row.impls), ',');
            && LineText(row) == key + "=" + value
            && '=' !in key
            && ToInternal(key) == row.base
            && Tokens(value) == row.impls
  {
    var names := AllToDotted(row.impls);
    ToDottedKeepsShape(row.base);
    ToDottedRoundTrip(row.base);
    if |names| == 0 {
      assert Join(names, ',') == "";
      assert Strip("") == "";
      assert Tokens("") == [];
    } else {
      forall i | 0 <= i < |names| ensures |names[i]| > 0 && ',' !in names[i] && TrimmedBy(names[i], IsWhitespace) {
        ToDottedKeepsShape(row.impls[i]);
      }
      TokensOfJoined(names);
      forall i | 0 <= i < |names| ensures AllToInternal(names)[i] == row.impls[i] {
        ToDottedRoundTrip(row.impls[i]);
      }
    }
  }

  /** `writeServiceList`'s content: `String.join("\n", services)`, with no
      trailing newline; no services give the empty text. */
  function ServiceListContent(services: seq<string>): (r: string)
    ensures |services| == 0 ==> r == ""
    // Services without newlines split back out of the text, in order.
    ensures |services| >= 1 && (forall i :: 0 <= i < |services| ==> '\n' !in services[i]) ==>
              SplitAll(r, '\n') == services
  {
    if |services| >= 1 && (forall i :: 0 <= i < |services| ==> '\n' !in services[i]) then
      SplitJoin(services, '\n');
      Join(services, '\n')
    else Join(services, '\n')
  }

  /** The file is rewritten exactly when it is missing or its text differs
      from the new content. */
  function ShouldWrite(newContent: string, existing: Option<string>): (r: bool)
    ensures existing.None? ==> r
    ensures !r ==> existing == Some(newContent)
    ensures existing.Some? && existing.value != newContent ==> r
    ensures existing == Some(newContent) ==> !r
  {
    existing != Some(newContent)
  }
}

=== FILE: precomputed.dfy ===
/** The post-parse part of `readAllPropertiesFromJar`: a dependency's
    precomputed index, already parsed into a key/value map, is merged into
    the accumulated `precomputed` map for the allowed bases, and the reader
    reports whether every allowed base was covered. */
module Precomputed {
  import opened Text
  import opened ClassNames
  import opened SortedSet

  /** Base (internal name) to its known implementations, each a
      `TreeSet<String>`. */
  type Index = map<string, seq<string>>

  predicate WellFormed(pre: Index)
  {
    forall b :: b in pre ==> Sorted(pre[b])
  }

  /** An implementation name as the index reader keeps it: non-empty, in
      internal form and without a comma. */
  predicate ValueToken(n: string)
  {
    |n| > 0 && '.' !in n && ',' !in n
  }

  /** What one piece of a property value contributes: nothing when it
      strips to empty, else its stripped text in internal form. */
  function PieceValue(piece: string): (r: seq<string>)
    requires ',' !in piece
    ensures |r| <= 1
    ensures forall i :: 0 <= i < |r| ==> ValueToken(r[i])
  {
    var t := Strip(piece);
    ToInternalKeepsShape(t);
    if |t| > 0 then [ToInternal(t)] else []
  }

  /** The kept tokens of one property value: every piece of
      `split(",", -1)`, stripped, empty ones dropped, the rest in internal
      form. */
  function ValueTokens(pieces: seq<string>): (r: seq<string>)
    requires forall i :: 0 <= i < |pieces| ==> ',' !in pieces[i]
    ensures |r| <= |pieces|
    ensures forall i :: 0 <= i < |r| ==> ValueToken(r[i])
    decreases |pieces|
  {
    if |pieces| == 0 then []
    else PieceValue(pieces[0]) + ValueTokens(pieces[1..])
  }

  /** The implementations a property value names. */
  function Tokens(value: string): seq<string>
  {
    ValueTokens(SplitAll(value, ','))
  }

  /** Implementation names as an index writes them: non-empty, without a
      comma, with nothing `strip` would remove at either end. */
  predicate ValueNames(names: seq<string>)
  {
    forall i :: 0 <= i < |names| ==>
      |names[i]| > 0 && ',' !in names[i] && TrimmedBy(names[i], IsWhitespace)
  }

  lemma ValueNamesHead(names: seq<string>)
    requires |names| > 0 && ValueNames(names)
    ensures Strip(names[0]) == names[0] && ',' !in names[0]
    ensures ValueNames(names[1..])
  {
    assert TrimmedBy(names[0], IsWhitespace);
    forall i | 0 <= i < |names| - 1
      ensures |names[1..][i]| > 0 && ',' !in names[1..][i] && TrimmedBy(names[1..][i], IsWhitespace)
    {
      assert names[1..][i] == names[i + 1];
    }
  }

  lemma {:induction false} ValueTokensOfNames(names: seq<string>)
    requires ValueNames(names)
    ensures ValueTokens(names) == AllToInternal(names)
    decreases |names|
  {
    if |names| > 0 {
      ValueNamesHead(names);
      assert ValueTokens(names) == [ToInternal(names[0])] + ValueTokens(names[1..]);
      ValueTokensOfNames(names[1..]);
      AllToInternalCons(names);
    }
  }

  /** A value written as names joined by ',' reads back as exactly those
      names, in order, in internal form. */
  lemma TokensOfJoined(names: seq<string>)
    requires |names| >= 1
    requires ValueNames(names)
    ensures Tokens(Join(names, ',')) == AllToInternal(names)
  {
    SplitJoin(names, ',');
    ValueTokensOfNames(names);
  }

  /** The tokens of every property value, by key. */
  function PropTokens(props: map<string, string>): (r: map<string, seq<string>>)
    ensures r.Keys == props.Keys
    ensures forall k :: k in r ==> r[k] == Tokens(props[k])
  {
    map k | k in props :: Tokens(props[k])
  }

  /** The internal forms of the keys in `keys` that are allowed bases. */
  ghost function MatchedBases(keys: set<string>, allowed: set<string>): set<string>
  {
    set k | k in keys && ToInternal(k) in allowed :: ToInternal(k)
  }

  /** Every implementation named by a key in `keys` that converts to `b`. */
  ghost function Named(toks: map<string, seq<string>>, keys: set<string>, b: string): set<string>
  {
    set k, t | k in keys && k in toks && ToInternal(k) == b && t in toks[k] :: t
  }

  function Prior(pre: Index, b: string): set<string>
  {
    if b in pre then Elems(pre[b]) else {}
  }

  /** What base `b` holds once the keys in `keys` have been read into
      `pre`. */
  ghost function Expected(pre: Index, toks: map<string, seq<string>>, keys: set<string>, allowed: set<string>, b: string): set<string>
  {
    Prior(pre, b) + (if b in allowed then Named(toks, keys, b) else {})
  }

  /** One iteration for a key whose internal form is `b`: an allowed base
      gets a set (`computeIfAbsent`) and every token added to it; any other
      key changes nothing. */
  function Absorb(pre: Index, b: string, tokens: seq<string>, allowed: set<string>): (r: Index)
    requires WellFormed(pre)
    ensures WellFormed(r)
    ensures b in allowed ==> r.Keys == pre.Keys + {b}
    ensures b !in allowed ==> r == pre
    ensures forall c :: c in pre && c != b ==> r[c] == pre[c]
    ensures forall c :: c in r ==> Elems(r[c]) == Prior(pre, c) + (if c == b && b in allowed then Elems(tokens) else {})
  {
    if b in allowed then
      var current := if b in pre then pre[b] else [];
      pre[b := InsertAll(current, tokens)]
    else pre
  }

  /** Adding one key to the visited keys adds its tokens to its base. */
  lemma NamedStep(toks: map<string, seq<string>>, done: set<string>, key: string, c: string)
    requires key in toks
    ensures Named(toks, done + {key}, c)
            == Named(toks, done, c) + (if ToInternal(key) == c then Elems(toks[key]) else {})
  {
  }

  /** Something named for an allowed base means a visited key matched it. */
  lemma NamedMatched(toks: map<string, seq<string>>, done: set<string>, allowed: set<string>, b: string)
    requires b in allowed
    ensures Named(toks, done, b) != {} ==> b in MatchedBases(done, allowed)
  {
    if Named(toks, done, b) != {} {
      var t :| t in Named(toks, done, b);
      var k :| k in done && k in toks && ToInternal(k) == b && t in toks[k];
      assert ToInternal(k) in MatchedBases(done, allowed);
    }
  }

  /** Visiting one more key matches its base when that base is allowed. */
  lemma MatchedStep(done: set<string>, key: string, allowed: set<string>)
    ensures MatchedBases(done + {key}, allowed)
            == MatchedBases(done, allowed) + (if ToInternal(key) in allowed then {ToInternal(key)} else {})
  {
  }

  /** Reading one more key keeps base `b` equal to what the keys read so
      far name. */
  lemma AbsorbAt(pre: Index, cur: Index, toks: map<string, seq<string>>, done: set<string>, key: string, allowed: set<string>, b: string)
    requires WellFormed(cur) && key in toks
    requires cur.Keys == pre.Keys + MatchedBases(done, allowed)
    requires b in cur ==> Elems(cur[b]) == Expected(pre, toks, done, allowed, b)
    requires b in Absorb(cur, ToInternal(key), toks[key], allowed)
    ensures Elems(Absorb(cur, ToInternal(key), toks[key], allowed)[b]) == Expected(pre, toks, done + {key}, allowed, b)
  {
    NamedStep(toks, done, key, b);
    if b !in cur {
      if b in allowed {
        NamedMatched(toks, done, allowed, b);
      }
      assert b !in pre;
    }
  }

  /** What the reader's map holds once the keys in `done` are read:
      exactly the matched bases are added, other bases keep their sets, and
      each set holds what it held plus what its keys name. */
  ghost predicate ReadSoFar(pre: Index, toks: map<string, seq<string>>, done: set<string>, allowed: set<string>, cur: Index)
  {
    && WellFormed(cur)
    && cur.Keys == pre.Keys + MatchedBases(done, allowed)
    && (forall b :: b in pre && b !in allowed ==> cur[b] == pre[b])
    && (forall b :: b in cur ==> Elems(cur[b]) == Expected(pre, toks, done, allowed, b))
  }

  /** Reading one more key keeps the map equal to what the keys read so far
      name. */
  lemma AbsorbStep(pre: Index, cur: Index, toks: map<string, seq<string>>, done: set<string>, key: string, allowed: set<string>)
    requires key in toks
    requires ReadSoFar(pre, toks, done, allowed, cur)
    ensures ReadSoFar(pre, toks, done + {key}, allowed, Absorb(cur, ToInternal(key), toks[key], allowed))
  {
    var next := Absorb(cur, ToInternal(key), toks[key], allowed);
    assert next.Keys == pre.Keys + MatchedBases(done + {key}, allowed) by {
      MatchedStep(done, key, allowed);
    }
    assert forall b :: b in next ==> Elems(next[b]) == Expected(pre, toks, done + {key}, allowed, b) by {
      forall b | b in next ensures Elems(next[b]) == Expected(pre, toks, done + {key}, allowed, b) {
        AbsorbAt(pre, cur, toks, done, key, allowed, b);
      }
    }
  }

  /** Before any key is read the map is the accumulated one. */
  lemma ReadNothing(pre: Index, toks: map<string, seq<string>>, allowed: set<string>)
    requires WellFormed(pre)
    ensures ReadSoFar(pre, toks, {}, allowed, pre)
  {
    forall b | b in pre && b in allowed ensures Named(toks, {}, b) == {} {
      NamedMatched(toks, {}, allowed, b);
    }
  }

  /** The reader's state: the allowed bases some key matched so far, and
      the accumulated map. */
  datatype Reading = Reading(matched: set<string>, index: Index)

  function KeySet(order: seq<string>): set<string>
  {
    set k | k in order
  }

  /** The loop of `readAllPropertiesFromJar` over the keys in `order`. */
  function ReadKeys(toks: map<string, seq<string>>, order: seq<string>, allowed: set<string>, st: Reading): (r: Reading)
    requires WellFormed(st.index)
    requires forall i :: 0 <= i < |order| ==> order[i] in toks
    ensures WellFormed(r.index)
    decreases |order|
  {
    if |order| == 0 then st
    else
      var b := ToInternal(order[0]);
      var matched := if b in allowed then st.matched + {b} else st.matched;
      ReadKeys(toks, order[1..], allowed, Reading(matched, Absorb(st.index, b, toks[order[0]], allowed)))
  }

  /** The reader's state once the keys in `done` are read. */
  ghost predicate StateAfter(pre: Index, toks: map<string, seq<string>>, done: set<string>, allowed: set<string>, st: Reading)
  {
    ReadSoFar(pre, toks, done, allowed, st.index) && st.matched == MatchedBases(done, allowed)
  }

  /** One key read from the state after `done` gives the state after
      `done` and that key. */
  lemma ReadOneKey(pre: Index, toks: map<string, seq<string>>, done: set<string>, order: seq<string>, allowed: set<string>, st: Reading)
    requires |order| > 0 && order[0] in toks
    requires StateAfter(pre, toks, done, allowed, st)
    ensures var b := ToInternal(order[0]);
            StateAfter(pre, toks, done + {order[0]}, allowed,
                       Reading(if b in allowed then st.matched + {b} else st.matched, Absorb(st.index, b, toks[order[0]], allowed)))
  {
    AbsorbStep(pre, st.index, toks, done, order[0], allowed);
    MatchedStep(done, order[0], allowed);
  }

  lemma KeySetSplit(order: seq<string>)
    requires |order| > 0
    ensures KeySet(order) == {order[0]} + KeySet(order[1..])
  {
    assert order == [order[0]] + order[1..];
  }

  /** Reading the keys of `order` after those of `done` leaves the state
      of having read both. */
  lemma {:induction false} ReadKeysSoFar(pre: Index, toks: map<string, seq<string>>, done: set<string>, order: seq<string>, allowed: set<string>, st: Reading)
    requires forall i :: 0 <= i < |order| ==> order[i] in toks
    requires StateAfter(pre, toks, done, allowed, st)
    ensures StateAfter(pre, toks, done + KeySet(order), allowed, ReadKeys(toks, order, allowed, st))
    decreases |order|
  {
    if |order| == 0 {
      assert done + KeySet(order) == done;
    } else {
      var b := ToInternal(order[0]);
      var next := Reading(if b in allowed then st.matched + {b} else st.matched, Absorb(st.index, b, toks[order[0]], allowed));
      ReadOneKey(pre, toks, done, order, allowed, st);
      KeySetSplit(order);
      assert done + {order[0]} + KeySet(order[1..]) == done + KeySet(order);
      assert ReadKeys(toks, order, allowed, st) == ReadKeys(toks, order[1..], allowed, next);
      ReadKeysSoFar(pre, toks, done + {order[0]}, order[1..], allowed, next);
    }
  }

  /** `readAllPropertiesFromJar` after `props.load`: `order` is the order in
      which `stringPropertyNames` hands out the keys, which Java leaves
      unspecified. The result reports whether every allowed base was
      covered, and gives the new accumulated map. */
  function ReadAllProperties(props: map<string, string>, order: seq<string>, pre: Index, allowed: set<string>): (r: (bool, Index))
    requires WellFormed(pre)
    requires forall k :: k in props <==> k in order
    ensures WellFormed(r.1)
    // Full coverage is reported exactly when every allowed base is a key
    // once '.' is replaced by '/'.
    ensures r.0 <==> forall b :: b in allowed ==> exists k :: k in props && ToInternal(k) == b
    // Every matched base gets a set, even when its value names nothing;
    // no other base is added.
    ensures r.1.Keys == pre.Keys + MatchedBases(props.Keys, allowed)
    // Bases that are not allowed keep their sets, and nothing accumulated
    // is removed.
    ensures forall b :: b in pre && b !in allowed ==> r.1[b] == pre[b]
    ensures forall b :: b in pre ==> Elems(pre[b]) <= Elems(r.1[b])
    // Each base holds what it held plus, when allowed, everything its keys
    // name.
    ensures forall b :: b in r.1 ==> Elems(r.1[b]) == Expected(pre, PropTokens(props), props.Keys, allowed, b)
  {
    var toks := PropTokens(props);
    ReadNothing(pre, toks, allowed);
    assert StateAfter(pre, toks, {}, allowed, Reading({}, pre));
    ReadKeysSoFar(pre, toks, {}, order, allowed, Reading({}, pre));
    assert {} + KeySet(order) == props.Keys;
    var st := ReadKeys(toks, order, allowed, Reading({}, pre));
    CoveredIff(props, allowed);
    (allowed <= st.matched, st.index)
  }

  /** Two well-formed maps with the same bases and the same members for
      each are the same map. */
  lemma SameMembersSameIndex(x: Index, y: Index)
    requires WellFormed(x) && WellFormed(y) && x.Keys == y.Keys
    requires forall b :: b in x ==> Elems(x[b]) == Elems(y[b])
    ensures x == y
  {
    forall b | b in x ensures x[b] == y[b] {
      SortedUnique(x[b], y[b]);
    }
  }

  /** The order the keys are visited in does not matter: every set is a
      sorted sequence fixed by its elements. */
  lemma ReadOrderIrrelevant(props: map<string, string>, o1: seq<string>, o2: seq<string>, pre: Index, allowed: set<string>)
    requires WellFormed(pre)
    requires forall k :: k in props <==> k in o1
    requires forall k :: k in props <==> k in o2
    ensures ReadAllProperties(props, o1, pre, allowed) == ReadAllProperties(props, o2, pre, allowed)
  {
    var (c1, r1) := ReadAllProperties(props, o1, pre, allowed);
    var (c2, r2) := ReadAllProperties(props, o2, pre, allowed);
    SameMembersSameIndex(r1, r2);
  }

  /** `matched.containsAll(allowedBases)` once every key is read. */
  lemma CoveredIff(props: map<string, string>, allowed: set<string>)
    ensures allowed <= MatchedBases(props.Keys, allowed)
            <==> forall b :: b in allowed ==> exists k :: k in props && ToInternal(k) == b
  {
    if forall b :: b in allowed ==> exists k :: k in props && ToInternal(k) == b {
      forall b | b in allowed ensures b in MatchedBases(props.Keys, allowed) {
        var k :| k in props && ToInternal(k) == b;
      }
    }
  }
}

=== FILE: resolver.dfy ===
/** The memoised superclass-chain walk `isSubclassOfBase`, shared by both
    plugins. The concrete-class plugin marks visited names with
    `putIfAbsent`, the service-list plugin with `put`; `MarkPolicy` tells
    them apart.

    The walk's meaning is given by `ChainFrom`: from a superclass name, the
    base is reached by following superclass links through concrete classes
    only, never passing `java/lang/Object`. A class `Descends` when it is
    concrete and such a chain starts at its superclass. */
module Resolver {
  import opened Wrappers
  import opened ClassHeader

  const ObjectName: string := "java/lang/Object"

  /** The loop runs while `hops <= MaxHops`. */
  const MaxHops: nat := 256

  type Store = map<string, Header>
  type Cache = map<string, bool>

  /** `isConcrete(headers.get(name))`: present, and neither interface nor
      abstract. */
  predicate ConcreteIn(headers: Store, name: string)
  {
    name in headers && IsConcrete(headers[name])
  }

  /** From `cur`, the base is reached within `n` further links. */
  predicate ChainFrom(headers: Store, base: string, cur: Option<string>, n: nat)
    decreases n
  {
    cur.Some?
    && (cur.value == base
        || (n > 0 && cur.value != ObjectName && ConcreteIn(headers, cur.value)
            && ChainFrom(headers, base, headers[cur.value].superName, n - 1)))
  }

  /** From `cur`, the base is reached in some number of links. */
  ghost predicate LeadsToBase(headers: Store, base: string, cur: Option<string>)
  {
    exists n: nat :: ChainFrom(headers, base, cur, n)
  }

  /** `name` is a concrete class whose superclass chain reaches the base. */
  ghost predicate Descends(headers: Store, base: string, name: string)
  {
    ConcreteIn(headers, name) && LeadsToBase(headers, base, headers[name].superName)
  }

  /** Every `true` in the cache is a real descendant. */
  ghost predicate TrueSound(headers: Store, base: string, cache: Cache)
  {
    forall k :: k in cache && cache[k] ==> Descends(headers, base, k)
  }

  /** Every verdict in the cache is the real one. */
  ghost predicate Exact(headers: Store, base: string, cache: Cache)
  {
    forall k :: k in cache ==> (cache[k] <==> Descends(headers, base, k))
  }

  /** Every descendant reaches the base within the hop bound. */
  ghost predicate Shallow(headers: Store, base: string)
  {
    forall k :: Descends(headers, base, k) ==> ChainFrom(headers, base, headers[k].superName, MaxHops)
  }

  /** One link: past a concrete class that is neither the base nor
      `java/lang/Object`, reaching the base is the same question for its
      superclass. */
  lemma LeadsStep(headers: Store, base: string, cur: string)
    requires cur != base && cur != ObjectName && ConcreteIn(headers, cur)
    ensures LeadsToBase(headers, base, Some(cur)) <==> LeadsToBase(headers, base, headers[cur].superName)
  {
    var sup := headers[cur].superName;
    if LeadsToBase(headers, base, Some(cur)) {
      var n: nat :| ChainFrom(headers, base, Some(cur), n);
      assert ChainFrom(headers, base, sup, n - 1);
    }
    if LeadsToBase(headers, base, sup) {
      var n: nat :| ChainFrom(headers, base, sup, n);
      assert ChainFrom(headers, base, Some(cur), n + 1);
    }
  }

  /** Where a name stops the walk, it leads to the base exactly when it is
      the base. */
  lemma LeadsStop(headers: Store, base: string, cur: Option<string>)
    requires cur.None? || (cur.value != base && (cur.value == ObjectName || !ConcreteIn(headers, cur.value)))
    ensures !LeadsToBase(headers, base, cur)
  {
    forall n: nat ensures !ChainFrom(headers, base, cur, n) {
    }
  }

  lemma LeadsToBaseAtBase(headers: Store, base: string)
    ensures LeadsToBase(headers, base, Some(base))
  {
    assert ChainFrom(headers, base, Some(base), 0);
  }

  /** A cached ancestor: for a name that is neither the base nor
      `java/lang/Object`, descending and leading to the base coincide. */
  lemma DescendsIsLeads(headers: Store, base: string, cur: string)
    requires cur != base && cur != ObjectName
    ensures Descends(headers, base, cur) <==> LeadsToBase(headers, base, Some(cur))
  {
    if ConcreteIn(headers, cur) {
      LeadsStep(headers, base, cur);
    } else {
      LeadsStop(headers, base, Some(cur));
    }
  }

  datatype MarkPolicy =
    | KeepExisting  // `cache.putIfAbsent(s, v)`
    | Overwrite     // `cache.put(s, v)`

  /** `markVisited`: records `v` for every visited name under the policy. */
  function MarkVisited(visited: seq<string>, cache: Cache, v: bool, policy: MarkPolicy): (r: Cache)
    ensures r.Keys == cache.Keys + set s | s in visited
    ensures forall k :: k in r && k !in cache ==> r[k] == v
    ensures policy.KeepExisting? ==> forall k :: k in cache ==> r[k] == cache[k]
    ensures policy.Overwrite? ==> forall k :: k in visited ==> r[k] == v
    ensures policy.Overwrite? ==> forall k :: k in cache && k !in visited ==> r[k] == cache[k]
    decreases |visited|
  {
    if |visited| == 0 then cache
    else
      var s := visited[0];
      var next := if policy.KeepExisting? && s in cache then cache else cache[s := v];
      MarkVisited(visited[1..], next, v, policy)
  }

  /** With no visited name already cached, both policies give the same
      cache. */
  lemma MarkPoliciesAgree(visited: seq<string>, cache: Cache, v: bool)
    requires forall s :: s in visited ==> s !in cache
    ensures MarkVisited(visited, cache, v, KeepExisting) == MarkVisited(visited, cache, v, Overwrite)
  {
    var a := MarkVisited(visited, cache, v, KeepExisting);
    var b := MarkVisited(visited, cache, v, Overwrite);
    assert a.Keys == b.Keys;
    forall k | k in a ensures a[k] == b[k] {
      if k in cache {
        assert k !in visited;
      }
    }
  }

  /** Marking the visited names with a verdict that holds for each of them
      keeps a sound cache sound and an exact cache exact. */
  lemma MarkKeeps(headers: Store, base: string, visited: seq<string>, cache: Cache, v: bool, policy: MarkPolicy)
    requires forall j :: 0 <= j < |visited| ==> visited[j] !in cache
    requires TrueSound(headers, base, cache) && v ==> forall j :: 0 <= j < |visited| ==> Descends(headers, base, visited[j])
    requires Exact(headers, base, cache) && Shallow(headers, base) ==>
               forall j :: 0 <= j < |visited| ==> (v <==> Descends(headers, base, visited[j]))
    ensures var marked := MarkVisited(visited, cache, v, policy);
            && (TrueSound(headers, base, cache) ==> TrueSound(headers, base, marked))
            && (Exact(headers, base, cache) && Shallow(headers, base) ==> Exact(headers, base, marked))
  {
    var marked := MarkVisited(visited, cache, v, policy);
    forall k | k in marked && k !in cache ensures exists j :: 0 <= j < |visited| && visited[j] == k {
      assert k in visited;
    }
  }

  /** The names a walk from `cur` appends to its visited list, with `fuel`
      iterations left: every concrete ancestor up to the first name that
      stops it (none, the base, `java/lang/Object`, a cached name or a class
      that is not concrete), or until the fuel runs out. */
  function Walk(headers: Store, base: string, cache: Cache, cur: Option<string>, fuel: nat): seq<string>
    decreases fuel
  {
    if fuel == 0 || cur.None? || cur.value == base || cur.value == ObjectName
       || cur.value in cache || !ConcreteIn(headers, cur.value)
    then []
    else [cur.value] + Walk(headers, base, cache, headers[cur.value].superName, fuel - 1)
  }

  /** Marking the class and the names its walk appended caches exactly
      those. */
  lemma MarkWalkKeys(visited: seq<string>, internal: string, walk: seq<string>, cache: Cache, v: bool, policy: MarkPolicy)
    requires visited == [internal] + walk
    ensures forall k :: k in MarkVisited(visited, cache, v, policy) <==> k in cache || k == internal || k in walk
  {
  }

  /** The loop of `isSubclassOfBase` for an uncached concrete class: the
      verdict, and the names visited, which every exit of the source then
      marks with that verdict. */
  method Climb(internal: string, headers: Store, cache: Cache, base: string) returns (r: bool, visited: seq<string>)
    requires internal !in cache && ConcreteIn(headers, internal)
    // The class, then the ancestors the walk appended.
    ensures visited == [internal] + Walk(headers, base, cache, headers[internal].superName, MaxHops + 1)
    ensures forall j :: 0 <= j < |visited| ==> visited[j] !in cache
    // With only sound `true`s cached, `true` means every visited name is a
    // real descendant.
    ensures TrueSound(headers, base, cache) && r ==> forall j :: 0 <= j < |visited| ==> Descends(headers, base, visited[j])
    // With exact verdicts cached and every chain within the bound, the
    // verdict is the real one for every visited name.
    ensures Exact(headers, base, cache) && Shallow(headers, base) ==>
              forall j :: 0 <= j < |visited| ==> (r <==> Descends(headers, base, visited[j]))
  {
    var start := headers[internal].superName;
    var cur := start;
    visited := [internal];
    var hops := 0;
    while cur.Some? && hops <= MaxHops
      invariant hops <= MaxHops + 1
      invariant |visited| == hops + 1 && visited[0] == internal
      invariant forall j :: 0 <= j < |visited| ==> visited[j] !in cache
      invariant forall j :: 0 <= j < |visited| ==>
                  (Descends(headers, base, visited[j]) <==> LeadsToBase(headers, base, cur))
      invariant ChainFrom(headers, base, start, MaxHops) ==>
                  hops <= MaxHops && ChainFrom(headers, base, cur, MaxHops - hops)
      invariant visited + Walk(headers, base, cache, cur, MaxHops + 1 - hops)
                == [internal] + Walk(headers, base, cache, start, MaxHops + 1)
      decreases MaxHops + 1 - hops
    {
      var name := cur.value;
      if name == base {
        LeadsToBaseAtBase(headers, base);
        return true, visited;
      }
      if name == ObjectName {
        LeadsStop(headers, base, cur);
        return false, visited;
      }
      if name in cache {
        DescendsIsLeads(headers, base, name);
        return cache[name], visited;
      }
      if !ConcreteIn(headers, name) {
        LeadsStop(headers, base, cur);
        return false, visited;
      }
      LeadsStep(headers, base, name);
      DescendsIsLeads(headers, base, name);
      assert Walk(headers, base, cache, cur, MaxHops + 1 - hops)
             == [name] + Walk(headers, base, cache, headers[name].superName, MaxHops - hops);
      assert visited + [name] + Walk(headers, base, cache, headers[name].superName, MaxHops - hops)
             == visited + Walk(headers, base, cache, cur, MaxHops + 1 - hops);
      visited := visited + [name];
      cur := headers[name].superName;
      hops := hops + 1;
    }
    if cur.None? {
      LeadsStop(headers, base, cur);
    }
    r := false;
  }

  /** `isSubclassOfBase(internal, headers, cache, base)`. */
  method IsSubclassOfBase(internal: string, headers: Store, cache: Cache, base: string, policy: MarkPolicy)
    returns (r: bool, cache': Cache)
    // A cached verdict is returned as it is, and nothing is recorded.
    ensures internal in cache ==> r == cache[internal] && cache' == cache
    // An absent, interface or abstract class is false and recorded as such.
    ensures internal !in cache && !ConcreteIn(headers, internal) ==> !r && cache' == cache[internal := false]
    // The cache only grows, and what it held is kept.
    ensures cache.Keys <= cache'.Keys
    ensures forall k :: k in cache ==> cache'[k] == cache[k]
    // The verdict is recorded for the class and for every name newly cached.
    ensures internal in cache' && cache'[internal] == r
    ensures forall k :: k in cache' && k !in cache ==> cache'[k] == r
    // The names newly cached are the class and every ancestor the walk
    // visited: each loop iteration may append one, up to `MaxHops + 1`.
    ensures internal !in cache && ConcreteIn(headers, internal) ==>
              forall k :: k in cache' <==> k in cache || k == internal || k in Walk(headers, base, cache, headers[internal].superName, MaxHops + 1)
    // Soundness: with only sound `true`s cached, `true` means a real chain.
    ensures TrueSound(headers, base, cache) ==> TrueSound(headers, base, cache') && (r ==> Descends(headers, base, internal))
    // Exactness: with exact verdicts cached and every chain within the
    // bound, the verdict is the real one.
    ensures Exact(headers, base, cache) && Shallow(headers, base) ==>
              Exact(headers, base, cache') && (r <==> Descends(headers, base, internal))
  {
    if internal in cache {
      return cache[internal], cache;
    }
    if !ConcreteIn(headers, internal) {
      return false, cache[internal := false];
    }
    var visited;
    r, visited := Climb(internal, headers, cache, base);
    MarkKeeps(headers, base, visited, cache, r, policy);
    MarkWalkKeys(visited, internal, Walk(headers, base, cache, headers[internal].superName, MaxHops + 1), cache, r, policy);
    cache' := MarkVisited(visited, cache, r, policy);
  }

  /** A superclass cycle through concrete classes never reaches a base
      outside it. */
  lemma {:induction false} CycleNeverReaches(headers: Store, base: string, a: string, b: string, n: nat)
    requires a != base && b != base && a != ObjectName && b != ObjectName
    requires a in headers && b in headers
    requires headers[a].superName == Some(b) && headers[b].superName == Some(a)
    ensures !ChainFrom(headers, base, Some(a), n) && !ChainFrom(headers, base, Some(b), n)
    decreases n
  {
    if n > 0 {
      CycleNeverReaches(headers, base, a, b, n - 1);
    }
  }

  /** Two classes extending each other (or one extending itself) are never
      descendants, so a walk from either, with sound `true`s cached,
      answers `false`. */
  lemma CycleIsFalse(headers: Store, base: string, a: string, b: string)
    requires a != base && b != base && a != ObjectName && b != ObjectName
    requires a in headers && b in headers
    requires headers[a].superName == Some(b) && headers[b].superName == Some(a)
    ensures !Descends(headers, base, a) && !Descends(headers, base, b)
  {
    if LeadsToBase(headers, base, Some(b)) {
      var n: nat :| ChainFrom(headers, base, Some(b), n);
      CycleNeverReaches(headers, base, a, b, n);
    }
    if LeadsToBase(headers, base, Some(a)) {
      var n: nat :| ChainFrom(headers, base, Some(a), n);
      CycleNeverReaches(headers, base, a, b, n);
    }
  }

  /** The fresh cache each walk sequence starts from is sound and exact. */
  lemma EmptyCacheExact(headers: Store, base: string)
    ensures TrueSound(headers, base, map[]) && Exact(headers, base, map[])
  {
  }
}

=== FILE: sorted_set.dfy ===
/** `TreeSet<String>` as a strictly increasing sequence under the
    lexicographic order of `String.compareTo`. */
module SortedSet {

  /** `a.compareTo(b) < 0`: the first differing character decides, and a
      proper prefix comes first. */
  predicate Less(a: string, b: string)
    decreases |a|
  {
    if |a| == 0 then |b| > 0
    else if |b| == 0 then false
    else a[0] < b[0] || (a[0] == b[0] && Less(a[1..], b[1..]))
  }

  lemma {:induction false} LessIrreflexive(a: string)
    ensures !Less(a, a)
    decreases |a|
  {
    if |a| > 0 {
      LessIrreflexive(a[1..]);
    }
  }

  lemma {:induction false} LessAsymmetric(a: string, b: string)
    ensures Less(a, b) ==> !Less(b, a)
    decreases |a|
  {
    if |a| > 0 && |b| > 0 {
      LessAsymmetric(a[1..], b[1..]);
    }
  }

  lemma {:induction false} LessTransitive(a: string, b: string, c: string)
    requires Less(a, b) && Less(b, c)
    ensures Less(a, c)
    decreases |a|
  {
    if |a| > 0 && a[0] == b[0] && b[0] == c[0] {
      LessTransitive(a[1..], b[1..], c[1..]);
    }
  }

  /** Distinct strings are ordered one way or the other. */
  lemma {:induction false} LessTotal(a: string, b: string)
    requires a != b
    ensures Less(a, b) || Less(b, a)
    decreases |a|
  {
    if |a| > 0 && |b| > 0 && a[0] == b[0] {
      assert a == [a[0]] + a[1..] && b == [b[0]] + b[1..];
      LessTotal(a[1..], b[1..]);
    }
  }

  predicate Sorted(xs: seq<string>)
  {
    forall i, j :: 0 <= i < j < |xs| ==> Less(xs[i], xs[j])
  }

  function Elems(xs: seq<string>): set<string>
  {
    set x | x in xs
  }

  /** `TreeSet.add`: the element lands in its place; an element already
      present leaves the set as it was. */
  function Insert(xs: seq<string>, x: string): (r: seq<string>)
    requires Sorted(xs)
    ensures Sorted(r)
    ensures Elems(r) == Elems(xs) + {x}
    ensures x in xs ==> r == xs
    ensures x !in xs ==> |r| == |xs| + 1
    decreases |xs|
  {
    if |xs| == 0 then [x]
    else if x == xs[0] then xs
    else if Less(x, xs[0]) then
      InsertFront(xs, x);
      [x] + xs
    else
      LessTotal(x, xs[0]);
      var rest := Insert(xs[1..], x);
      InsertBehind(xs, x, rest);
      [xs[0]] + rest
  }

  /** An element below the first goes in front. */
  lemma InsertFront(xs: seq<string>, x: string)
    requires Sorted(xs) && |xs| > 0 && Less(x, xs[0])
    ensures x !in xs
    ensures Sorted([x] + xs)
    ensures Elems([x] + xs) == Elems(xs) + {x}
  {
    forall j | 0 <= j < |xs| ensures Less(x, xs[j]) {
      if j > 0 {
        LessTransitive(x, xs[0], xs[j]);
      }
    }
    forall j | 0 <= j < |xs| ensures x != xs[j] {
      LessIrreflexive(x);
    }
    var r := [x] + xs;
    forall i, j | 0 <= i < j < |r| ensures Less(r[i], r[j]) {
      if i > 0 {
        assert r[i] == xs[i - 1] && r[j] == xs[j - 1];
      }
    }
  }

  /** An element above the first goes into the rest. */
  lemma InsertBehind(xs: seq<string>, x: string, rest: seq<string>)
    requires Sorted(xs) && |xs| > 0 && Less(xs[0], x)
    requires Sorted(rest) && Elems(rest) == Elems(xs[1..]) + {x}
    requires x in xs[1..] ==> rest == xs[1..]
    requires x !in xs[1..] ==> |rest| == |xs[1..]| + 1
    ensures Sorted([xs[0]] + rest)
    ensures Elems([xs[0]] + rest) == Elems(xs) + {x}
    ensures x in xs ==> [xs[0]] + rest == xs
    ensures x !in xs ==> |[xs[0]] + rest| == |xs| + 1
  {
    assert xs == [xs[0]] + xs[1..];
    LessIrreflexive(x);
    forall y | y in rest ensures Less(xs[0], y) {
      assert y in Elems(xs[1..]) + {x};
      if y != x {
        var k :| 0 <= k < |xs[1..]| && xs[1..][k] == y;
        assert y == xs[k + 1];
      }
    }
    var r := [xs[0]] + rest;
    forall i, j | 0 <= i < j < |r| ensures Less(r[i], r[j]) {
      if i == 0 {
        assert r[j] == rest[j - 1];
        assert rest[j - 1] in rest;
      } else {
        assert r[i] == rest[i - 1] && r[j] == rest[j - 1];
      }
    }
  }

  /** All of `xs` inserted into `acc`, in order. */
  function InsertAll(acc: seq<string>, xs: seq<string>): (r: seq<string>)
    requires Sorted(acc)
    ensures Sorted(r)
    ensures Elems(r) == Elems(acc) + Elems(xs)
    decreases |xs|
  {
    if |xs| == 0 then acc
    else
      assert Elems(xs) == {xs[0]} + Elems(xs[1..]);
      InsertAll(Insert(acc, xs[0]), xs[1..])
  }

  lemma NoElems(xs: seq<string>)
    ensures Elems(xs) == {} <==> xs == []
  {
    if xs != [] {
      assert xs[0] in Elems(xs);
    }
  }

  /** A sorted sequence is determined by its elements: two `TreeSet`s with
      the same members iterate identically. */
  lemma {:induction false} SortedUnique(xs: seq<string>, ys: seq<string>)
    requires Sorted(xs) && Sorted(ys)
    requires Elems(xs) == Elems(ys)
    ensures xs == ys
    decreases |xs|
  {
    if |xs| > 0 && |ys| > 0 {
      assert xs[0] == ys[0] by {
        if xs[0] != ys[0] {
          assert xs[0] in Elems(ys);
          assert ys[0] in Elems(xs);
          var i :| 0 <= i < |ys| && ys[i] == xs[0];
          var j :| 0 <= j < |xs| && xs[j] == ys[0];
          LessAsymmetric(xs[0], ys[0]);
        }
      }
      assert Elems(xs[1..]) == Elems(ys[1..]) by {
        forall y ensures y in Elems(xs[1..]) <==> y in Elems(ys[1..]) {
          LessIrreflexive(xs[0]);
          if y in xs[1..] {
            var i :| 0 <= i < |xs[1..]| && xs[1..][i] == y;
            assert Less(xs[0], xs[i + 1]);
            assert y in Elems(xs);
            var k :| 0 <= k < |ys| && ys[k] == y;
            assert k != 0;
            assert ys[1..][k - 1] == y;
          }
          if y in ys[1..] {
            var i :| 0 <= i < |ys[1..]| && ys[1..][i] == y;
            assert Less(ys[0], ys[i + 1]);
            assert y in Elems(ys);
            var k :| 0 <= k < |xs| && xs[k] == y;
            assert k != 0;
            assert xs[1..][k - 1] == y;
          }
        }
      }
      SortedUnique(xs[1..], ys[1..]);
      assert xs == [xs[0]] + xs[1..] && ys == [ys[0]] + ys[1..];
    } else {
      NoElems(xs);
      NoElems(ys);
    }
  }

  /** A sorted sequence holds no element twice. */
  lemma SortedDistinct(xs: seq<string>)
    requires Sorted(xs)
    ensures forall i, j :: 0 <= i < j < |xs| ==> xs[i] != xs[j]
  {
    forall i, j | 0 <= i < j < |xs| ensures xs[i] != xs[j] {
      LessIrreflexive(xs[i]);
    }
  }
}

=== FILE: text.dfy ===
/** The pieces of `java.lang.String` the plugins rely on: `split`, `join`,
    `trim`, `strip`, `isBlank`, `replace(char, char)` and `endsWith`, each on
    `string = seq<char>`. */
module Text {

  /** Occurrences of `c` in `s`. */
  function Count(s: string, c: char): nat
  {
    if |s| == 0 then 0 else (if s[0] == c then 1 else 0) + Count(s[1..], c)
  }

  /** `s.split(sep, -1)`: every piece between separators, empty ones included;
      there is always one more piece than there are separators. */
  function SplitAll(s: string, sep: char): (r: seq<string>)
    ensures |r| == Count(s, sep) + 1
    ensures forall i :: 0 <= i < |r| ==> sep !in r[i]
    decreases |s|
  {
    if |s| == 0 then [""]
    else
      var rest := SplitAll(s[1..], sep);
      if s[0] == sep then [""] + rest
      else [[s[0]] + rest[0]] + rest[1..]
  }

  /** `String.join(sep, xs)`. */
  function Join(xs: seq<string>, sep: char): string
  {
    if |xs| == 0 then ""
    else if |xs| == 1 then xs[0]
    else xs[0] + [sep] + Join(xs[1..], sep)
  }

  /** Splitting a piece that holds no separator, followed by one, peels it off. */
  lemma {:induction false} SplitAfterPiece(a: string, b: string, sep: char)
    requires sep !in a
    ensures SplitAll(a + [sep] + b, sep) == [a] + SplitAll(b, sep)
    decreases |a|
  {
    var s := a + [sep] + b;
    if |a| == 0 {
      assert s == [sep] + b;
      assert s[1..] == b;
    } else {
      assert s[0] == a[0];
      assert s[1..] == a[1..] + [sep] + b;
      SplitAfterPiece(a[1..], b, sep);
      assert [a[0]] + a[1..] == a;
    }
  }

  /** A piece and a separator in front of a text whose pieces are
      `pieces` and a last one `last`, add the piece in front. */
  lemma SplitPrepend(a: string, b: string, pieces: seq<string>, sep: char)
    requires sep !in a
    requires SplitAll(b, sep) == pieces + [""]
    ensures SplitAll(a + [sep] + b, sep) == [a] + pieces + [""]
  {
    SplitAfterPiece(a, b, sep);
    assert [a] + (pieces + [""]) == [a] + pieces + [""];
  }

  /** A string without the separator splits into itself. */
  lemma {:induction false} SplitWithoutSeparator(a: string, sep: char)
    requires sep !in a
    ensures SplitAll(a, sep) == [a]
    decreases |a|
  {
    if |a| > 0 {
      assert sep !in a[1..] by {
        forall i | 0 <= i < |a[1..]| ensures a[1..][i] != sep {
          assert a[1..][i] == a[i + 1];
        }
      }
      SplitWithoutSeparator(a[1..], sep);
      assert [a[0]] + a[1..] == a;
    }
  }

  /** `split` undoes `join` when no piece holds the separator. */
  lemma {:induction false} SplitJoin(xs: seq<string>, sep: char)
    requires |xs| >= 1
    requires forall i :: 0 <= i < |xs| ==> sep !in xs[i]
    ensures SplitAll(Join(xs, sep), sep) == xs
    decreases |xs|
  {
    if |xs| == 1 {
      SplitWithoutSeparator(xs[0], sep);
    } else {
      SplitAfterPiece(xs[0], Join(xs[1..], sep), sep);
      SplitJoin(xs[1..], sep);
      assert [xs[0]] + xs[1..] == xs;
    }
  }

  /** `join` undoes `split`: no character is lost or added. */
  lemma {:induction false} JoinSplit(s: string, sep: char)
    ensures Join(SplitAll(s, sep), sep) == s
    decreases |s|
  {
    if |s| > 0 {
      var rest := SplitAll(s[1..], sep);
      JoinSplit(s[1..], sep);
      if s[0] == sep {
        assert SplitAll(s, sep) == [""] + rest;
        assert ([""] + rest)[1..] == rest;
        assert [s[0]] + s[1..] == s;
      } else {
        var r := SplitAll(s, sep);
        assert r == [[s[0]] + rest[0]] + rest[1..];
        assert r[1..] == rest[1..];
        if |rest| == 1 {
          assert Join(rest, sep) == rest[0];
        } else {
          assert Join(rest, sep) == rest[0] + [sep] + Join(rest[1..], sep);
        }
        assert [s[0]] + s[1..] == s;
      }
    }
  }

  /** The first character of a join is the first character of its first
      piece. */
  lemma JoinStart(xs: seq<string>, sep: char)
    requires |xs| >= 1 && |xs[0]| >= 1
    ensures |Join(xs, sep)| >= 1 && Join(xs, sep)[0] == xs[0][0]
  {
  }

  /** `String.trim` removes characters up to and including the space. */
  predicate IsTrimmable(c: char)
  {
    c <= ' '
  }

  /** `Character.isWhitespace`: the ASCII controls tab to carriage return and
      file to unit separator, the space, and the Unicode space, line and
      paragraph separators other than the three non-breaking spaces. */
  predicate IsWhitespace(c: char)
  {
    || ('\t' <= c <= '\r')
    || ('\U{1C}' <= c <= ' ')
    || c == '\U{1680}'
    || ('\U{2000}' <= c <= '\U{2006}')
    || ('\U{2008}' <= c <= '\U{200A}')
    || c == '\U{2028}'
    || c == '\U{2029}'
    || c == '\U{205F}'
    || c == '\U{3000}'
  }

  /** `String.isBlank`: empty or only whitespace. */
  predicate IsBlank(s: string)
  {
    forall i :: 0 <= i < |s| ==> IsWhitespace(s[i])
  }

  /** The end of the run of characters satisfying `p` that starts at `k`. */
  function RunEnd(s: string, p: char -> bool, k: nat): (e: nat)
    requires k <= |s|
    ensures k <= e <= |s|
    ensures forall i :: k <= i < e ==> p(s[i])
    ensures e == |s| || !p(s[e])
    decreases |s| - k
  {
    if k < |s| && p(s[k]) then RunEnd(s, p, k + 1) else k
  }

  /** The start of the run of characters satisfying `p` that ends at `k`. */
  function RunStart(s: string, p: char -> bool, k: nat): (b: nat)
    requires k <= |s|
    ensures b <= k
    ensures forall i :: b <= i < k ==> p(s[i])
    ensures b == 0 || !p(s[b - 1])
  {
    if k > 0 && p(s[k - 1]) then RunStart(s, p, k - 1) else k
  }

  /** Drops the longest prefix of characters satisfying `p`. */
  function DropStart(s: string, p: char -> bool): (r: string)
    ensures |r| <= |s| && r == s[|s| - |r|..]
    ensures |r| == 0 || !p(r[0])
    ensures forall i :: 0 <= i < |s| - |r| ==> p(s[i])
  {
    s[RunEnd(s, p, 0)..]
  }

  /** Drops the longest suffix of characters satisfying `p`. */
  function DropEnd(s: string, p: char -> bool): (r: string)
    ensures |r| <= |s| && r == s[..|r|]
    ensures |r| == 0 || !p(r[|r| - 1])
    ensures forall i :: |r| <= i < |s| ==> p(s[i])
  {
    s[..RunStart(s, p, |s|)]
  }

  /** True when neither end of `s` satisfies `p`. */
  predicate TrimmedBy(s: string, p: char -> bool)
  {
    |s| == 0 || (!p(s[0]) && !p(s[|s| - 1]))
  }

  /** Removes characters satisfying `p` from both ends. */
  function TrimBy(s: string, p: char -> bool): (r: string)
    ensures TrimmedBy(r, p)
    ensures TrimmedBy(s, p) ==> r == s
    ensures |r| <= |s| && forall c :: c in r ==> c in s
  {
    DropEnd(DropStart(s, p), p)
  }

  /** `String.trim`. */
  function Trim(s: string): string
  {
    TrimBy(s, IsTrimmable)
  }

  /** `String.strip`. */
  function Strip(s: string): string
  {
    TrimBy(s, IsWhitespace)
  }

  /** `s.replace(from, to)` for single characters. */
  function Replace(s: string, from: char, to: char): (r: string)
    ensures |r| == |s|
    ensures forall i :: 0 <= i < |s| ==> r[i] == (if s[i] == from then to else s[i])
  {
    seq(|s|, i requires 0 <= i < |s| => if s[i] == from then to else s[i])
  }

  /** `s.endsWith(suffix)`. */
  predicate EndsWith(s: string, suffix: string)
  {
    |suffix| <= |s| && s[|s| - |suffix|..] == suffix
  }
}

=== FILE: wrappers.dfy ===
/** Failure-compatible wrappers shared by the whole model: `Option` stands for
    a Java reference that may be null, `Result` for a computation that may
    throw. */
module Wrappers {

  datatype Option<+T> = None | Some(value: T) {

    predicate IsFailure() {
      None?
    }

    function PropagateFailure<U>(): Option<U>
      requires None?
    {
      None
    }

    function Extract(): T
      requires Some?
    {
      value
    }

    /** The value, or `default` when absent (Java's `getOrDefault`). */
    function GetOr(default: T): T {
      match this
      case Some(v) => v
      case None => default
    }
  }

  datatype Result<+R, +E> = Success(value: R) | Failure(error: E) {

    predicate IsFailure() {
      Failure?
    }

    function PropagateFailure<U>(): Result<U, E>
      requires Failure?
    {
      Failure(error)
    }

    function Extract(): R
      requires Success?
    {
      value
    }
  }
}
